=== FILE: README.md ===
# FlowSimulator in Dafny

A model of the engine of FlowSimulator, a flow-level network simulator. A
topology is a directed graph of nodes (hosts and CORE/AGG/TOR switches) and
links with a bandwidth. A workload is a list of flows, each with a source, a
destination, a data size and a start time. The simulator routes every flow on
one equal-cost shortest path (ECMP), then runs a discrete-event loop. Each
pass of the loop:

- shares link bandwidth among the running flows by water-filling;
- finds the earliest moment a flow starts or finishes;
- advances every flow to that moment.

The loop stops when no flow has an event left.

The model is functional. Nodes and links are named by their position in the
topology's sequences, never by pointers. Every loop of the source becomes a
recursive function with a termination measure. The properties are stated in
the functions' contracts and proved in lemmas.

Modules, one file each:

| module | file | models |
|---|---|---|
| `ExtReal` | ereal.dfy | reals with +infinity, which stands for `numeric_limits<double>::infinity()`, and the `if (x < m) m = x` minimum update |
| `SeqUtil` | sequtil.dfy | flattening of nested loops, index sets, first occurrence |
| `Graph` | graph.dfy | `Node`, `Link` and `Topology` of topology.h, the two constructors, and link creation (`AddLink`); `Valid` says every adjacency list is exactly the links leaving its node, in creation order |
| `BigSwitch` | bigswitch.dfy | `generateOneBigSwitch` |
| `FatTree` | fattree.dfy | `generateFatTree` |
| `Flows` | flows.dfy | `Flow`, `FlowState`, `Flow::stableTime` and `Flow::progress` |
| `BreadthFirst` | bfs.dfy | the breadth-first search that opens `Flow::routingECMP` |
| `Routing` | routing.dfy | the rest of `Flow::routingECMP`: it enumerates the shortest paths, picks one, and maps the path to links |
| `WaterFill` | allocator.dfy | `Workload::updateState`, exactly as the code runs it |
| `Workload` | workload.dfy | `Workload::routing`, `Workload::stableTime`, `Workload::progress` and `generateSimpleFlows` |
| `Simulator` | simulator.dfy | `Simulator::run` |
| `Example` | example.dfy | the run that main.cpp sets up, worked through pass by pass |

Behaviours of the code that the model keeps on purpose:

- `routingECMP` clears `path` but appends to `path_links` without clearing it. `Routing.RouteEcmp` keeps the old links in front of the new ones.
- The search never expands the destination.
- Parallel links record the same predecessor twice, so the path list then holds duplicates.
- A flow frozen by one saturated link stays registered on its other links. Those links keep dividing their headroom by a count that includes it. So the allocator is not max-min fair. The model proves that it respects capacity, not that it is fair.
- A RUN flow with no links is on no link's list, so no filled link ever releases it. It stays active and takes every round's increment, and leaves through the "no link can be filled" break holding the final common level. When that level is 0, as it is when no RUN flow uses a link, its stable time is +infinity, as C++'s `x / 0` gives. When the level is positive, as it is when another RUN flow fills a link of positive bandwidth, the flow drains at that rate and completes without using any link.
- For 0 / 0 the code gets NaN. The comparison `time < minTime` skips NaN, just as it skips +infinity, so `Infinity` stands in for both.
- Progress never looks at the path, so an unroutable flow still starts at its start time.
- The run of main.cpp ends at global time 1.3 (`Example.Simulation`). Flow 1 completes at 1.1, when flow 0 has 20 units left.

## Model

| member | source | states |
|---|---|---|
| ExtReal.MinOf | workload.cpp:263-269 | the running minimum after one more value is one of the two, is at most both, and is infinite only when both are |
| Graph.NewNode | topology.cpp:7 | a new node has the given id and kind and no outgoing links |
| Graph.AddLink | topology.cpp:115-121 | a new link goes at the end of `links`; only its source node's adjacency list changes, gaining the new link's position |
| Graph.OutgoingSpec | topology.h:32 | the links leaving a node, listed without repeats in creation order, are exactly the links whose source is that node |
| Graph.AdjacencySpec | topology.h:32 | in a well-formed graph every entry of a node's adjacency list is a link leaving that node, and every link leaving it is listed, in increasing order |
| Graph.AddLinkValid | topology.cpp:115-121 | adding a link between existing nodes keeps the graph well-formed |
| Graph.AddPairValid | topology.cpp:186-192 | adding a link and its reverse between existing nodes keeps the graph well-formed |
| BigSwitch.NodesSpec | topology.cpp:173-180 | before any link exists there are k+1 nodes with id equal to position, hosts first and the AGG switch last, all with empty adjacency |
| BigSwitch.WireKeepsNodes | topology.cpp:184-193 | the link loop never renumbers or retags a node |
| BigSwitch.WireValid | topology.cpp:184-193 | the link loop keeps the graph well-formed |
| BigSwitch.WireLinks | topology.cpp:184-193 | after i iterations there are 2i links of bandwidth `linkBw`: at 2h the uplink with id h from host h to the switch, and at 2h+1 the downlink with id h+k back |
| BigSwitch.WireOut | topology.cpp:188-192 | after i iterations each wired host owns only its uplink, unwired hosts own nothing, and the switch owns the downlinks in host order |
| BigSwitch.Generate | topology.cpp:163-193 | the one-big-switch graph is well-formed, has k+1 nodes numbered by position (hosts, then one AGG switch) and 2k links of bandwidth `linkBw` in the order i, i+k; host i owns only link i and the switch owns the downlinks in host order; it depends only on k and `linkBw` |
| FatTree.NodesShape | topology.cpp:74-103 | the node loops lay out pods·h² hosts, pods·h TORs, pods·h AGGs and h² cores (h = k/2), numbered by position |
| FatTree.CoreLoopMembers | topology.cpp:149 | the core loop started at a visits only cores below the limit that are congruent to a modulo the step |
| FatTree.CoreLoopLength | topology.cpp:149 | started at a + m·h with a < h and m ≤ h, the core loop below h² visits h − m cores, so from a it visits h |
| FatTree.PairsClassified | topology.cpp:109-160 | there are 3·pods·h² forward pairs; each joins host to TOR, TOR to AGG, or AGG a to a core c with c mod h = a, and each names existing nodes |
| FatTree.ConnectKeeps | topology.cpp:109-160 | the link loops never renumber or retag a node and keep the links already present |
| FatTree.ConnectValid | topology.cpp:109-160 | the link loops keep the graph well-formed |
| FatTree.ConnectLinks | topology.cpp:115-121 | pair j becomes the forward link at 2j and the reverse link at 2j+1, each with its position as id |
| FatTree.BuildLink | topology.cpp:107-160 | every generated link has its position as id and bandwidth `linkBw`, joins existing nodes, and goes from AGG to CORE only when it is an AGG a to core c with c mod h = a link |
| FatTree.Generate | topology.cpp:59-161 | the fat tree is well-formed, nodes come layer by layer numbered by position, there are 6·pods·h² links numbered by position in forward/reverse pairs of bandwidth `linkBw`, and AGG a of a pod reaches only cores c with c mod h = a |
| Flows.NewFlow | workload.h:38-39 | a new flow keeps the given id, endpoints, size and start time, is waiting and unrouted, and is due to start at its start time |
| Flows.StableTime | workload.cpp:34-47 | the stable time is infinite exactly for a completed flow or a running flow with zero throughput; a waiting flow's is 0 exactly when its start time has come and otherwise reaches the start time exactly; a running flow's drains its remaining size at its throughput |
| Flows.Progress | workload.cpp:48-67 | one step moves a flow at most one lifecycle stage forward and changes only its state and remaining size; a waiting flow starts exactly when now + delta reaches 1e-5 before its start time, with its whole size left; a running flow completes exactly when less than 1e-5 would be left, with 0 left, and otherwise keeps its remaining size less throughput times delta; a waiting or completed flow that keeps its stage is unchanged |
| Flows.ProgressByStableTime | workload.cpp:34-67 | advancing a flow by exactly its own finite stable time moves it one stage on |
| Flows.ProgressDrains | workload.cpp:57-66 | running at a non-negative rate for a non-negative time either leaves the remaining size between 0 and its old value or completes the flow with 0 left; from a non-negative remaining size it never rises nor becomes negative |
| Flows.StableTimeNonNegative | workload.cpp:37-43 | with a non-negative rate and remaining size the stable time is not negative |
| BreadthFirst.Bfs | workload.cpp:79-110 | the search only reaches nodes of the graph and ends with an empty queue |
| BreadthFirst.BfsSound | workload.cpp:79-110 | every recorded predecessor is one hop closer to the source and joined to the node by a link, and the source is at distance 0 |
| BreadthFirst.StepOrdered | workload.cpp:88-109 | one dequeue-and-expand step keeps the queue sorted by distance, keeps every reached node within one hop of the queue's front, and leaves every dequeued node other than the destination with all its neighbours reached within one more hop |
| BreadthFirst.ExploreClosed | workload.cpp:88-110 | when the queue empties, every reached node other than the destination has all its neighbours reached within one more hop |
| BreadthFirst.BfsShortest | workload.cpp:79-110 | whenever a walk leads from the source to the destination, the search reaches the destination at a distance no larger than that walk's hop count |
| Routing.PathsToWalks | workload.cpp:117-137 | the enumeration yields at least one path to every reached node, and each path starts at the source, ends at the node, follows links and has its i-th node at distance i |
| Routing.AllPaths | workload.cpp:117-137 | for a reached destination the path list is non-empty and holds only minimal-hop walks from source to destination |
| Routing.FirstLinkTo | workload.cpp:149-154 | the link loop finds nothing exactly when no listed link leads to the next node; otherwise it finds the first listed link that does |
| Routing.FirstLinkLowest | workload.cpp:144-155 | in a well-formed graph the link chosen for a step u to v is the lowest-numbered link from u to v, and there is one whenever such a link exists |
| Routing.LinksAlongSpec | workload.cpp:144-155 | a path of linked nodes maps to one link per step, the lowest-numbered link joining that step's two nodes |
| Routing.ChosenPath | workload.cpp:140-141 | the path picked by the random number is a minimal-hop walk from source to destination over existing nodes |
| Routing.RouteEcmp | workload.cpp:69-156 | routing changes only `path` and `path_links`; equal endpoints give the path [src] and no new links; an unreached destination gives the empty path and no new links; otherwise the path is a minimal-hop walk and the new links map it |
| Routing.RouteEcmpLinks | workload.cpp:69-156 | a path is found exactly when the endpoints are equal or the destination is reached; it runs from src to dst, the old links stay in front, and one lowest-numbered link per hop is appended |
| Routing.ReachedIffWalk | workload.cpp:80-115 | for distinct endpoints the search reaches the destination exactly when some walk leads there |
| Routing.RouteEcmpShortest | workload.cpp:79-141 | whenever some walk joins distinct endpoints, the chosen path is a walk between them with no more nodes than that walk |
| WaterFill.EnlistCount | workload.cpp:221-223 | registering one flow adds it to each link once per occurrence of that link in its link list, and changes nothing else |
| WaterFill.RegisterCount | workload.cpp:215-225 | after registration each link lists every RUN flow as often as the link occurs in the flow's links, and no other flow |
| WaterFill.RegisterMember | workload.cpp:215-225 | a flow is on a link's list exactly when it runs and the link is one of its links |
| WaterFill.MinShare | workload.cpp:229-237 | the increment is infinite exactly when no link lists flows; otherwise it is the headroom per listed flow of some listing link and at most that of every listing link |
| WaterFill.RoundClears | workload.cpp:229-258 | raising by the smallest share fills the link attaining it, so every round clears at least one link list |
| WaterFill.Water | workload.cpp:228-259 | the loop ends with no active flow or through the break, which happens only with flows still active and no link listing any; each round clears a link list |
| WaterFill.UpdateState | workload.cpp:206-260 | the allocator runs at most one round per link |
| WaterFill.RoundInv | workload.cpp:243-258 | one round keeps every link within its bandwidth, the flows registered on a link within what it carries, all active flows at one common level that rose by a non-negative increment, and frozen flows ordered by freezing round |
| WaterFill.UpdateStateFrame | workload.cpp:209-225 | only throughputs change, and flows that are not RUN keep theirs |
| WaterFill.UpdateStateStuck | workload.cpp:238-242 | the loop leaves through the break exactly when some RUN flow has no link; otherwise every RUN flow with a link gets frozen |
| WaterFill.UpdateStateFeasible | workload.cpp:228-259 | with no negative bandwidth, at the end every link carries at most its bandwidth, the flows registered on a link sum to at most what it carries, active flows share the final level, every RUN flow lies between 0 and that level, and a flow frozen earlier has no more throughput than one frozen later |
| WaterFill.UpdateStatePositive | workload.cpp:228-259 | with positive bandwidths every RUN flow that has a link ends with positive throughput |
| Workload.RouteAllRouted | workload.cpp:192-196 | routing every flow keeps the flows' other fields and their links inside the topology, and gives a flow a path exactly when its endpoints are equal or a walk joins them |
| Workload.Horizon | workload.cpp:262-272 | the earliest event is infinite exactly when every flow's stable time is; otherwise some flow attains it, and it is at most every flow's stable time |
| Workload.HorizonAdvances | workload.cpp:262-276 | advancing all flows by a finite earliest event moves at least one flow a stage on and none back, so fewer stages are pending |
| Workload.SimpleFlows | workload.cpp:158-168 | the fixture is a flow of 100 from node 0 to node 1 starting at 0 and a flow of 30 from the last node to node 1 starting at 0.5, both waiting and unrouted |
| Simulator.HorizonNonNegative | simulator.cpp:12-15 | with no negative bandwidth and sane flows, the time to the next event is not negative |
| Simulator.SettledComplete | simulator.cpp:12-18 | with positive bandwidths and a link for every unfinished flow, the loop can stop only once every flow has completed |
| Simulator.StepDrains | simulator.cpp:12-20 | with no negative bandwidth and sane flows, one pass never raises the remaining size of a flow that runs before and after it |
| Simulator.PassKeeps | simulator.cpp:12-20 | after a pass whose earliest event is infinite every flow is settled (and complete under positive bandwidths with linked flows); after any other pass the advanced flows have strictly fewer pending stages, have only moved on, and keep their sanity over a non-negative wait and their links |
| Simulator.RunFrom | simulator.cpp:10-21 | the loop ends after at most one pass per pending lifecycle stage plus one, with every flow completed or stalled at zero rate, each flow having only moved forward; the clock never goes back when no bandwidth is negative, and every flow completes under positive bandwidths when every flow has a link |
| Simulator.Simulate | simulator.cpp:5-24 | the run starts its clock at 0 and keeps one entry per flow |
| Simulator.RunSteps | simulator.cpp:10-21 | the loop runs at most 2n+1 times for n flows |
| Example.NetShape | main.cpp:14 | the big switch with two hosts is well-formed, with three nodes; its uplinks 0 and 1 and downlinks 2 and 3 are stored in the order 0, 2, 1, 3; each host owns its uplink and the switch owns both downlinks |
| Example.Routes | main.cpp:20-21 | with any random numbers, routing the simple flows sends flow 0 over 0 -> 2 -> 1 on links 0 and 3 and flow 1 over 2 -> 1 on link 3, and changes nothing else about them |
| Example.RouteHostPath | workload.cpp:79-141 | every ECMP route from host 0 to host 1 runs through the switch, because it is a shortest walk and no link joins the hosts |
| Example.Solo | workload.cpp:206-260 | when only flow 0 runs, the allocator gives it the full 100 of its links, ends after one round, and changes nothing else |
| Example.Duo | workload.cpp:206-260 | when both flows run, link 3 fills in the first round, which freezes both flows at 50 each and ends the allocation after one round |
| Example.StepC | simulator.cpp:12-20 | the pass starting at 0.5 lasts 0.6; at 1.1 flow 1 has completed and flow 0 runs on with 20 left |
| Example.FromA | simulator.cpp:10-21 | the loop on these links visits global times 0, 0, 0.5, 1.1 and 1.3 and ends with both flows complete |
| Example.Simulation | main.cpp:14-26 | building the big switch, routing the simple flows with any random numbers and running the simulator ends at global time 1.3 with both flows complete and nothing left to send |

## Left out

- Printing: `print` and `printState` of every class, the `cout` lines of `Simulator::run`, and the "No link can be filled" message. They are output only.
- `generateRandomFlows`, `srand` and `rand`. They are library randomness. The random number that `routingECMP` draws is a parameter.
- Workload.RouteAll: each flow gets its own random number `rs[i]`. The code draws all of them from one `rand()` stream.
- main.cpp: `srand(0)` is not modelled. The worked run holds for any random numbers, because each flow has only one shortest path.
- Example.Solo and Example.Duo: the allocator is evaluated only on the two link loads this run meets. No general closed form of the allocation is given.
- IEEE-754 doubles: the model uses exact reals. Rounding, overflow and NaN are not modelled, except that +infinity and the division by zero of a running flow with zero throughput become `Infinity`. In C++ that division gives +infinity for a positive remaining size, NaN for 0 and -infinity for a negative one. NaN is harmless, since `time < minTime` skips it as it skips +infinity. -infinity would win the minimum, but it needs a negative data size, which `Simulator.Sane` excludes.
- Integer widths: ids, `k` and `pods` are unbounded naturals. Negative `k` or `pods` and 32-bit overflow of the node and link counters are not modelled. Odd `k` is truncated by `k / 2` as in the code.
- Pointers, `new`/`delete` and destructors are left out. The generators' delete-and-clear step is modelled by results that depend only on their arguments. The `desc` string is used only when printing.
- The `unordered_map` and `queue` of the search become a Dafny map and sequence. `activeFlows` becomes a set of flow positions: each RUN flow is pushed once, so erasing by value matches set difference.
- The scratch fields `Link::throughput` and `Link::flows` live in the allocator's `Slot`, not in `Link`.
- The C++ `Flow` constructor leaves throughput and remaining size uninitialised. They are written before they are read, so `NewFlow` sets them to 0.
- Routing.AllPaths: the enumeration is proved sound and non-empty, not complete. The model does not prove that every shortest path is listed. It is computed as the code computes it, duplicates included.
- Simulator.RunFrom: the clock is proved non-decreasing only when no bandwidth is negative and the flows are sane, meaning no negative size and no negative remaining size. Completion of every flow is proved only with positive bandwidths and a link for every unfinished flow. Outside these conditions the code's loop can also see negative or zero rates.
- Simulator.StepDrains: the non-increasing remaining size is proved for one pass of the loop. The outcome keeps only the final flows, so it is not restated over the whole run.
- Simulator.Simulate: it states only the starting clock and sizes. The loop's properties are those of `Simulator.RunFrom` from time 0.
- WaterFill.UpdateState: max-min fairness is not claimed, because the code does not provide it, as described above.

=== FILE: allocator.dfy ===
/** `Workload::updateState` (workload.cpp): the water-filling allocator as the
    code performs it. Every RUN flow is registered on each link of its
    `pathLinks`; then all still-active flows are raised together by the
    smallest per-flow headroom over the links that still have registered
    flows, and a link that fills up freezes its flows and forgets them. A
    flow frozen by one link stays registered on its other links, so it keeps
    taking a share of their headroom without receiving it. */
module WaterFill {
  import opened ExtReal
  import opened Graph
  import opened Flows

  /** A link's scratch state during allocation: the bandwidth it already carries
      and the positions of the flows registered on it. */
  datatype Slot = Slot(used: real, members: seq<nat>)

  /** The allocator's state: the flows, one slot per link, `activeFlows` as a
      set of flow positions, the common level every active flow has reached,
      the round in which each frozen flow was frozen, the number of rounds
      run, and whether the loop left through its "no link can be filled" break. */
  datatype Fill = Fill(
    flows: seq<Flow>, slots: seq<Slot>, active: set<nat>, level: real,
    frozen: map<nat, nat>, rounds: nat, stuck: bool)

  /** A link counts as full within 1e-6 of its bandwidth. */
  const SatTolerance: real := 0.000001

  /** Every flow's links are links of the topology. */
  predicate Routed(t: Topology, flows: seq<Flow>) {
    forall i, k :: 0 <= i < |flows| && 0 <= k < |flows[i].pathLinks| ==> flows[i].pathLinks[k] < |t.links|
  }

  /** Adds flow i to the member list of each link in `ls`, once per occurrence. */
  function Enlist(lists: seq<seq<nat>>, i: nat, ls: seq<nat>): (r: seq<seq<nat>>)
    requires forall k :: 0 <= k < |ls| ==> ls[k] < |lists|
    ensures |r| == |lists|
    decreases |ls|
  {
    if |ls| == 0 then lists
    else Enlist(lists[ls[0] := lists[ls[0]] + [i]], i, ls[1..])
  }

  /** Enlisting adds flow i to link l once per occurrence of l in its link list. */
  lemma {:induction false} EnlistCount(lists: seq<seq<nat>>, i: nat, ls: seq<nat>, l: nat, x: nat)
    requires forall k :: 0 <= k < |ls| ==> ls[k] < |lists|
    requires l < |lists|
    ensures multiset(Enlist(lists, i, ls)[l])[x] == multiset(lists[l])[x] + (if x == i then multiset(ls)[l] else 0)
    decreases |ls|
  {
    if |ls| > 0 {
      var next := lists[ls[0] := lists[ls[0]] + [i]];
      EnlistCount(next, i, ls[1..], l, x);
      assert ls == [ls[0]] + ls[1..];
      assert multiset(ls) == multiset{ls[0]} + multiset(ls[1..]);
      if l == ls[0] {
        assert multiset(next[l]) == multiset(lists[l]) + multiset{i};
      }
    }
  }

  /** The link lists after registering the first n flows. */
  function Register(t: Topology, flows: seq<Flow>, n: nat): (lists: seq<seq<nat>>)
    requires Routed(t, flows) && n <= |flows|
    ensures |lists| == |t.links|
  {
    if n == 0 then seq(|t.links|, l => [])
    else
      var before := Register(t, flows, n - 1);
      if flows[n - 1].state == Run then Enlist(before, n - 1, flows[n - 1].pathLinks) else before
  }

  /** After registration link l lists exactly the RUN flows whose link list
      contains l, each as many times as l occurs in it. */
  lemma {:induction false} RegisterCount(t: Topology, flows: seq<Flow>, n: nat, l: nat, x: nat)
    requires Routed(t, flows) && n <= |flows| && l < |t.links|
    ensures multiset(Register(t, flows, n)[l])[x] ==
              if x < n && flows[x].state == Run then multiset(flows[x].pathLinks)[l] else 0
  {
    if n > 0 {
      RegisterCount(t, flows, n - 1, l, x);
      if flows[n - 1].state == Run {
        EnlistCount(Register(t, flows, n - 1), n - 1, flows[n - 1].pathLinks, l, x);
      }
    }
  }

  /** Flow x is registered on link l exactly when it runs and l is one of its links. */
  lemma RegisterMember(t: Topology, flows: seq<Flow>, l: nat, x: nat)
    requires Routed(t, flows) && l < |t.links|
    ensures x in Register(t, flows, |flows|)[l] <==> x < |flows| && flows[x].state == Run && l in flows[x].pathLinks
  {
    var lists := Register(t, flows, |flows|);
    RegisterCount(t, flows, |flows|, l, x);
    assert x in lists[l] <==> x in multiset(lists[l]);
    if x < |flows| {
      assert l in flows[x].pathLinks <==> l in multiset(flows[x].pathLinks);
    }
  }

  /** Sets the throughput of every RUN flow to 0 and leaves the others alone. */
  function ResetRates(flows: seq<Flow>): (r: seq<Flow>)
    ensures |r| == |flows|
    ensures forall i :: 0 <= i < |flows| ==>
      r[i] == flows[i].(throughput := if flows[i].state == Run then 0.0 else flows[i].throughput)
  {
    seq(|flows|, i requires 0 <= i < |flows| =>
      if flows[i].state == Run then flows[i].(throughput := 0.0) else flows[i])
  }

  /** The RUN flows, which form the initial `activeFlows`. */
  function Running(flows: seq<Flow>): (s: set<nat>)
    ensures forall i: nat :: i in s <==> i < |flows| && flows[i].state == Run
  {
    set i: nat | i < |flows| && flows[i].state == Run
  }

  /** The state after the reset and registration loops. */
  function Start(t: Topology, flows: seq<Flow>): Fill
    requires Routed(t, flows)
  {
    var lists := Register(t, flows, |flows|);
    Fill(ResetRates(flows), seq(|t.links|, l requires 0 <= l < |t.links| => Slot(0.0, lists[l])),
         Running(flows), 0.0, map[], 0, false)
  }

  /** `(bandwidth - throughput) / flows.size()` of a link with registered flows. */
  function Headroom(bw: real, s: Slot): real
    requires |s.members| > 0
  {
    (bw - s.used) / (|s.members| as real)
  }

  /** The `minThroughput` loop over the first n links, in link order. */
  function MinShare(t: Topology, slots: seq<Slot>, n: nat): (m: EReal)
    requires |slots| == |t.links| && n <= |slots|
    ensures m.Infinity? <==> forall l :: 0 <= l < n ==> |slots[l].members| == 0
    ensures m.Finite? ==> exists l :: 0 <= l < n && |slots[l].members| > 0 && m.value == Headroom(t.links[l].bandwidth, slots[l])
    ensures m.Finite? ==> forall l :: 0 <= l < n && |slots[l].members| > 0 ==> m.value <= Headroom(t.links[l].bandwidth, slots[l])
  {
    if n == 0 then Infinity
    else
      var m := MinShare(t, slots, n - 1);
      if |slots[n - 1].members| > 0 then MinOf(m, Finite(Headroom(t.links[n - 1].bandwidth, slots[n - 1]))) else m
  }

  /** The link now carries d more for each registered flow and is full when within the tolerance of its bandwidth. */
  predicate Fills(bw: real, s: Slot, d: real) {
    |s.members| > 0 && s.used + d * (|s.members| as real) >= bw - SatTolerance
  }

  /** The per-link update of one round: a link with registered flows takes d per
      registered flow, and is cleared when it fills. */
  function Pour(bw: real, s: Slot, d: real): (r: Slot)
    ensures |s.members| == 0 ==> r == s
    ensures |s.members| > 0 ==> r.used == s.used + d * (|s.members| as real)
    ensures r.members == if Fills(bw, s, d) then [] else s.members
  {
    if |s.members| == 0 then s
    else
      var u := s.used + d * (|s.members| as real);
      if u >= bw - SatTolerance then Slot(u, []) else Slot(u, s.members)
  }

  /** The flows removed from `activeFlows` this round: those registered on a link that fills. */
  function Released(t: Topology, slots: seq<Slot>, d: real): (s: set<nat>)
    requires |slots| == |t.links|
    ensures forall x :: x in s <==> exists l :: 0 <= l < |slots| && Fills(t.links[l].bandwidth, slots[l], d) && x in slots[l].members
  {
    set l, x | 0 <= l < |slots| && Fills(t.links[l].bandwidth, slots[l], d) && x in slots[l].members :: x
  }

  /** Number of links that still have registered flows. */
  function Busy(slots: seq<Slot>): nat {
    if |slots| == 0 then 0 else Busy(slots[..|slots| - 1]) + (if |slots[|slots| - 1].members| > 0 then 1 else 0)
  }

  /** Clearing link lists, and never refilling one, lowers the count of busy links. */
  lemma {:induction false} BusyDrops(a: seq<Slot>, b: seq<Slot>, j: nat)
    requires |a| == |b| && j < |a| && |a[j].members| > 0 && |b[j].members| == 0
    requires forall l :: 0 <= l < |a| && |a[l].members| == 0 ==> |b[l].members| == 0
    ensures Busy(b) < Busy(a)
  {
    var n := |a| - 1;
    if j < n {
      BusyDrops(a[..n], b[..n], j);
    } else {
      BusyNoRise(a[..n], b[..n]);
    }
  }

  lemma {:induction false} BusyNoRise(a: seq<Slot>, b: seq<Slot>)
    requires |a| == |b|
    requires forall l :: 0 <= l < |a| && |a[l].members| == 0 ==> |b[l].members| == 0
    ensures Busy(b) <= Busy(a)
  {
    if |a| > 0 {
      BusyNoRise(a[..|a| - 1], b[..|b| - 1]);
    }
  }

  /** The link loop of one round. */
  function PourAll(t: Topology, slots: seq<Slot>, d: real): (r: seq<Slot>)
    requires |slots| == |t.links|
    ensures |r| == |slots|
    ensures forall l :: 0 <= l < |slots| ==> r[l] == Pour(t.links[l].bandwidth, slots[l], d)
  {
    seq(|slots|, l requires 0 <= l < |slots| => Pour(t.links[l].bandwidth, slots[l], d))
  }

  /** One pass of the allocator's loop, which runs while any flow is active, with increment d:
      every active flow rises by d, every link pours, the flows of links that
      filled leave the active set and are recorded as frozen in this round. */
  function Round(t: Topology, st: Fill, d: real): (r: Fill)
    requires |st.slots| == |t.links|
    ensures |r.flows| == |st.flows| && |r.slots| == |st.slots|
    ensures r.active == st.active - Released(t, st.slots, d)
    ensures r.level == st.level + d && r.rounds == st.rounds + 1 && !r.stuck
    ensures forall i :: 0 <= i < |st.flows| ==>
      r.flows[i] == st.flows[i].(throughput := st.flows[i].throughput + (if i in st.active then d else 0.0))
    ensures r.slots == PourAll(t, st.slots, d)
    ensures forall i :: i in r.frozen <==> i in st.frozen || (i in st.active && i !in r.active)
    ensures forall i :: i in st.frozen ==> r.frozen[i] == st.frozen[i]
    ensures forall i :: i in r.frozen && i !in st.frozen ==> r.frozen[i] == st.rounds
  {
    var released := Released(t, st.slots, d);
    var flows := seq(|st.flows|, i requires 0 <= i < |st.flows| =>
      if i in st.active then st.flows[i].(throughput := st.flows[i].throughput + d) else st.flows[i]);
    var slots := PourAll(t, st.slots, d);
    var newlyFrozen := st.active * released;
    var frozen := map i | i in st.frozen.Keys + newlyFrozen :: if i in st.frozen then st.frozen[i] else st.rounds;
    Fill(flows, slots, st.active - released, st.level + d, frozen, st.rounds + 1, false)
  }

  /** Raising a link's flows by exactly its headroom fills it. */
  lemma HeadroomFills(bw: real, s: Slot)
    requires |s.members| > 0
    ensures Fills(bw, s, Headroom(bw, s))
  {
    var n := |s.members| as real;
    assert Headroom(bw, s) * n == bw - s.used;
  }

  /** The link attaining the minimum headroom fills exactly, so a round
      clears at least one link list. */
  lemma RoundClears(t: Topology, slots: seq<Slot>)
    requires |slots| == |t.links| && MinShare(t, slots, |slots|).Finite?
    ensures Busy(PourAll(t, slots, MinShare(t, slots, |slots|).value)) < Busy(slots)
  {
    var d := MinShare(t, slots, |slots|).value;
    var l :| 0 <= l < |slots| && |slots[l].members| > 0 && d == Headroom(t.links[l].bandwidth, slots[l]);
    HeadroomFills(t.links[l].bandwidth, slots[l]);
    var after := PourAll(t, slots, d);
    assert |after[l].members| == 0;
    BusyDrops(slots, after, l);
  }

  /** The allocation loop. */
  function Water(t: Topology, st: Fill): (r: Fill)
    requires |st.slots| == |t.links| && !st.stuck
    ensures |r.slots| == |t.links| && |r.flows| == |st.flows|
    ensures r.active == {} || r.stuck
    ensures r.stuck ==> r.active != {} && forall l :: 0 <= l < |r.slots| ==> |r.slots[l].members| == 0
    ensures r.rounds - st.rounds + Busy(r.slots) <= Busy(st.slots)
    decreases Busy(st.slots)
  {
    if st.active == {} then st
    else
      var m := MinShare(t, st.slots, |t.links|);
      if m.Infinity? then st.(stuck := true)
      else
        RoundClears(t, st.slots);
        Water(t, Round(t, st, m.value))
  }

  /** `Workload::updateState`. */
  function UpdateState(t: Topology, flows: seq<Flow>): (r: Fill)
    requires Routed(t, flows)
    ensures |r.flows| == |flows|
    ensures r.rounds <= |t.links|
  {
    var st := Start(t, flows);
    BusyAtMost(st.slots);
    Water(t, st)
  }

  lemma {:induction false} BusyAtMost(slots: seq<Slot>)
    ensures Busy(slots) <= |slots|
  {
    if |slots| > 0 {
      BusyAtMost(slots[..|slots| - 1]);
    }
  }

  /** The sum of the throughputs of the listed flows, counting repeats;
      positions outside `flows` contribute nothing. */
  function SumRates(flows: seq<Flow>, xs: seq<nat>): real
  {
    if |xs| == 0 then 0.0
    else (if xs[0] < |flows| then flows[xs[0]].throughput else 0.0) + SumRates(flows, xs[1..])
  }

  lemma {:induction false} SumRatesBound(flows: seq<Flow>, xs: seq<nat>, c: real)
    requires forall k :: 0 <= k < |xs| ==> xs[k] < |flows| && flows[xs[k]].throughput <= c
    ensures SumRates(flows, xs) <= (|xs| as real) * c
  {
    if |xs| > 0 {
      SumRatesBound(flows, xs[1..], c);
    }
  }

  lemma {:induction false} SumRatesFrame(a: seq<Flow>, b: seq<Flow>, xs: seq<nat>)
    requires |a| == |b|
    requires forall k :: 0 <= k < |xs| ==> xs[k] < |a| && a[xs[k]].throughput == b[xs[k]].throughput
    ensures SumRates(a, xs) == SumRates(b, xs)
  {
    if |xs| > 0 {
      SumRatesFrame(a, b, xs[1..]);
    }
  }

  /** Link l either still lists exactly its registered flows, or it has been
      cleared and none of them is active any more. */
  ghost predicate Listed(reg: seq<seq<nat>>, st: Fill, l: nat)
    requires |st.slots| == |reg| && l < |reg|
  {
    if |st.slots[l].members| > 0 then st.slots[l].members == reg[l]
    else forall k :: 0 <= k < |reg[l]| ==> reg[l][k] !in st.active
  }

  /** What the loop keeps whatever the bandwidths: `reg` is the registration of
      the input flows `fs0`; only throughputs of RUN flows move; the active
      flows are RUN flows, and a RUN flow without links stays active; the
      frozen flows are the RUN flows that left the active set, each in an
      earlier round; and every link is `Listed`. */
  ghost predicate Shape(t: Topology, fs0: seq<Flow>, reg: seq<seq<nat>>, st: Fill) {
    && |st.flows| == |fs0| && |st.slots| == |t.links| == |reg|
    && (forall i :: 0 <= i < |fs0| ==> st.flows[i] == fs0[i].(throughput := st.flows[i].throughput))
    && (forall i :: 0 <= i < |fs0| && fs0[i].state != Run ==> st.flows[i].throughput == fs0[i].throughput)
    && (forall l, k :: 0 <= l < |reg| && 0 <= k < |reg[l]| ==>
          reg[l][k] < |fs0| && fs0[reg[l][k]].state == Run && l in fs0[reg[l][k]].pathLinks)
    && (forall i, k :: 0 <= i < |fs0| && fs0[i].state == Run && 0 <= k < |fs0[i].pathLinks| ==>
          fs0[i].pathLinks[k] < |reg| && i in reg[fs0[i].pathLinks[k]])
    && (forall i :: i in st.active ==> i < |fs0| && fs0[i].state == Run)
    && (forall i :: 0 <= i < |fs0| && fs0[i].state == Run && fs0[i].pathLinks == [] ==> i in st.active)
    && (forall i :: i in st.frozen <==> 0 <= i < |fs0| && fs0[i].state == Run && i !in st.active)
    && (forall i :: i in st.frozen ==> st.frozen[i] < st.rounds)
    && (forall l :: 0 <= l < |reg| ==> Listed(reg, st, l))
  }

  /** Active flows sit at the common level, and every RUN flow lies between 0 and the level. */
  ghost predicate Rates(fs0: seq<Flow>, st: Fill)
    requires |st.flows| == |fs0|
  {
    && st.level >= 0.0
    && (forall i :: 0 <= i < |fs0| && i in st.active ==> st.flows[i].throughput == st.level)
    && (forall i :: 0 <= i < |fs0| && fs0[i].state == Run ==> 0.0 <= st.flows[i].throughput <= st.level)
  }

  /** A flow frozen in an earlier round has no more throughput than one frozen in a later round. */
  ghost predicate FrozenOrder(fs0: seq<Flow>, st: Fill)
    requires |st.flows| == |fs0|
  {
    forall i, j :: 0 <= i < |fs0| && 0 <= j < |fs0| && i in st.frozen && j in st.frozen && st.frozen[i] < st.frozen[j] ==>
      st.flows[i].throughput <= st.flows[j].throughput
  }

  /** Link l is within its bandwidth; while it lists its flows it carries one
      level's worth per registration, and once cleared the flows it carried
      have no more than what it recorded. */
  ghost predicate LinkOk(t: Topology, reg: seq<seq<nat>>, st: Fill, l: nat)
    requires |st.slots| == |t.links| == |reg| && l < |reg|
  {
    var s := st.slots[l];
    && s.used <= t.links[l].bandwidth
    && if |s.members| > 0 then s.used == (|reg[l]| as real) * st.level
       else SumRates(st.flows, reg[l]) <= s.used
  }

  /** The allocator's invariant when no bandwidth is negative. */
  ghost predicate Inv(t: Topology, fs0: seq<Flow>, reg: seq<seq<nat>>, st: Fill) {
    && Shape(t, fs0, reg, st)
    && Rates(fs0, st)
    && FrozenOrder(fs0, st)
    && (forall l :: 0 <= l < |reg| ==> LinkOk(t, reg, st, l))
  }

  /** Under positive bandwidths: a link still listing flows is strictly below
      its bandwidth, and every frozen flow has positive throughput. */
  ghost predicate Positive(t: Topology, st: Fill)
    requires |st.slots| == |t.links|
  {
    && (forall l :: 0 <= l < |st.slots| && |st.slots[l].members| > 0 ==> st.slots[l].used < t.links[l].bandwidth)
    && (forall i :: i in st.frozen ==> i < |st.flows| && st.flows[i].throughput > 0.0)
  }

  lemma StartShape(t: Topology, flows: seq<Flow>)
    requires Routed(t, flows)
    ensures Shape(t, flows, Register(t, flows, |flows|), Start(t, flows))
    ensures !Start(t, flows).stuck
  {
    var reg := Register(t, flows, |flows|);
    forall l, k | 0 <= l < |reg| && 0 <= k < |reg[l]|
      ensures reg[l][k] < |flows| && flows[reg[l][k]].state == Run && l in flows[reg[l][k]].pathLinks
    {
      RegisterMember(t, flows, l, reg[l][k]);
    }
    forall i, k | 0 <= i < |flows| && flows[i].state == Run && 0 <= k < |flows[i].pathLinks|
      ensures flows[i].pathLinks[k] < |reg| && i in reg[flows[i].pathLinks[k]]
    {
      RegisterMember(t, flows, flows[i].pathLinks[k], i);
    }
  }

  lemma StartInv(t: Topology, flows: seq<Flow>)
    requires Routed(t, flows) && NonNegativeBandwidths(t)
    ensures Inv(t, flows, Register(t, flows, |flows|), Start(t, flows))
    ensures PositiveBandwidths(t) ==> Positive(t, Start(t, flows))
  {
    var reg := Register(t, flows, |flows|);
    var st := Start(t, flows);
    StartShape(t, flows);
    forall l | 0 <= l < |reg| ensures LinkOk(t, reg, st, l) {
      if |reg[l]| == 0 {
        assert SumRates(st.flows, reg[l]) == 0.0;
      }
    }
  }

  /** A flow without links is on no link list. */
  lemma Unlisted(t: Topology, fs0: seq<Flow>, reg: seq<seq<nat>>, st: Fill, i: nat)
    requires Shape(t, fs0, reg, st) && i < |fs0| && fs0[i].pathLinks == []
    ensures forall l :: 0 <= l < |st.slots| ==> i !in st.slots[l].members
  {
    forall l | 0 <= l < |st.slots| ensures i !in st.slots[l].members {
      assert Listed(reg, st, l);
      forall k | 0 <= k < |reg[l]| ensures reg[l][k] != i {
        assert l in fs0[reg[l][k]].pathLinks;
      }
    }
  }

  /** A round, whatever its increment, keeps the shape of the state. */
  lemma RoundShape(t: Topology, fs0: seq<Flow>, reg: seq<seq<nat>>, st: Fill, d: real)
    requires Shape(t, fs0, reg, st)
    ensures Shape(t, fs0, reg, Round(t, st, d))
  {
    var r := Round(t, st, d);
    forall i | 0 <= i < |fs0| && fs0[i].state == Run && fs0[i].pathLinks == [] ensures i in r.active {
      Unlisted(t, fs0, reg, st, i);
    }
    forall l | 0 <= l < |reg| ensures Listed(reg, r, l) {
      assert Listed(reg, st, l);
      if |st.slots[l].members| > 0 && Fills(t.links[l].bandwidth, st.slots[l], d) {
        forall k | 0 <= k < |reg[l]| ensures reg[l][k] !in r.active {
          assert reg[l][k] in st.slots[l].members;
        }
      }
    }
  }

  lemma {:induction false} WaterShape(t: Topology, fs0: seq<Flow>, reg: seq<seq<nat>>, st: Fill)
    requires Shape(t, fs0, reg, st) && !st.stuck
    ensures Shape(t, fs0, reg, Water(t, st))
    decreases Busy(st.slots)
  {
    if st.active != {} {
      var m := MinShare(t, st.slots, |t.links|);
      if m.Finite? {
        RoundClears(t, st.slots);
        RoundShape(t, fs0, reg, st, m.value);
        WaterShape(t, fs0, reg, Round(t, st, m.value));
      } else {
        forall l | 0 <= l < |reg| ensures Listed(reg, st.(stuck := true), l) {
          assert Listed(reg, st, l);
        }
      }
    }
  }

  /** An increment no larger than a link's headroom keeps the link within its bandwidth. */
  lemma WithinHeadroom(bw: real, s: Slot, d: real)
    requires |s.members| > 0 && d <= Headroom(bw, s)
    ensures Fits(bw, s, d)
  {
    var n := |s.members| as real;
    assert d * n <= Headroom(bw, s) * n;
  }

  /** The headroom of a link within its bandwidth is not negative, and positive below it. */
  lemma HeadroomSign(bw: real, s: Slot)
    requires |s.members| > 0 && s.used <= bw
    ensures Headroom(bw, s) >= 0.0
    ensures s.used < bw ==> Headroom(bw, s) > 0.0
  {
  }

  /** Pouring d into a link keeps it within its bandwidth. */
  predicate Fits(bw: real, s: Slot, d: real) {
    s.used + d * (|s.members| as real) <= bw
  }

  /** The increment of a round is not negative and fits into every listing link. */
  lemma Increment(t: Topology, st: Fill)
    requires |st.slots| == |t.links| && MinShare(t, st.slots, |st.slots|).Finite?
    requires forall l :: 0 <= l < |st.slots| ==> st.slots[l].used <= t.links[l].bandwidth
    ensures var d := MinShare(t, st.slots, |st.slots|).value;
      && d >= 0.0
      && forall l :: 0 <= l < |st.slots| && |st.slots[l].members| > 0 ==> Fits(t.links[l].bandwidth, st.slots[l], d)
  {
    var d := MinShare(t, st.slots, |st.slots|).value;
    var j :| 0 <= j < |st.slots| && |st.slots[j].members| > 0 && d == Headroom(t.links[j].bandwidth, st.slots[j]);
    HeadroomSign(t.links[j].bandwidth, st.slots[j]);
    forall l | 0 <= l < |st.slots| && |st.slots[l].members| > 0 ensures Fits(t.links[l].bandwidth, st.slots[l], d) {
      WithinHeadroom(t.links[l].bandwidth, st.slots[l], d);
    }
  }

  /** Under positive bandwidths the increment of a round is positive. */
  lemma IncrementPositive(t: Topology, st: Fill)
    requires |st.slots| == |t.links| && MinShare(t, st.slots, |st.slots|).Finite? && Positive(t, st)
    ensures MinShare(t, st.slots, |st.slots|).value > 0.0
  {
    var d := MinShare(t, st.slots, |st.slots|).value;
    var j :| 0 <= j < |st.slots| && |st.slots[j].members| > 0 && d == Headroom(t.links[j].bandwidth, st.slots[j]);
    HeadroomSign(t.links[j].bandwidth, st.slots[j]);
  }

  /** A link still listing its flows, after pouring d into it. */
  lemma BusyLinkAfter(t: Topology, reg: seq<seq<nat>>, st: Fill, r: Fill, d: real, l: nat)
    requires |st.slots| == |t.links| == |reg| == |r.slots| && l < |reg| && d >= 0.0
    requires |st.slots[l].members| > 0 && st.slots[l].members == reg[l]
    requires st.slots[l].used == (|reg[l]| as real) * st.level
    requires Fits(t.links[l].bandwidth, st.slots[l], d)
    requires r.slots[l] == Pour(t.links[l].bandwidth, st.slots[l], d) && r.level == st.level + d
    requires forall k :: 0 <= k < |reg[l]| ==> reg[l][k] < |r.flows| && r.flows[reg[l][k]].throughput <= r.level
    ensures LinkOk(t, reg, r, l)
  {
    var n := |reg[l]| as real;
    assert r.slots[l].used == n * st.level + d * n == n * r.level;
    if Fills(t.links[l].bandwidth, st.slots[l], d) {
      SumRatesBound(r.flows, reg[l], r.level);
    }
  }

  lemma RoundBusyLink(t: Topology, reg: seq<seq<nat>>, st: Fill, d: real, l: nat)
    requires |st.slots| == |t.links| == |reg| && l < |reg| && d >= 0.0
    requires |st.slots[l].members| > 0 && st.slots[l].members == reg[l]
    requires st.slots[l].used == (|reg[l]| as real) * st.level
    requires Fits(t.links[l].bandwidth, st.slots[l], d)
    requires forall k :: 0 <= k < |reg[l]| ==> reg[l][k] < |st.flows| && st.flows[reg[l][k]].throughput <= st.level
    ensures LinkOk(t, reg, Round(t, st, d), l)
  {
    var r := Round(t, st, d);
    forall k | 0 <= k < |reg[l]| ensures r.flows[reg[l][k]].throughput <= r.level {
    }
    BusyLinkAfter(t, reg, st, r, d, l);
  }

  /** A cleared link, after one round: its flows are inactive, so nothing it
      carried changes. */
  lemma RoundIdleLink(t: Topology, reg: seq<seq<nat>>, st: Fill, d: real, l: nat)
    requires |st.slots| == |t.links| == |reg| && l < |reg|
    requires forall k :: 0 <= k < |reg[l]| ==> reg[l][k] < |st.flows| && reg[l][k] !in st.active
    requires |st.slots[l].members| == 0 && LinkOk(t, reg, st, l)
    ensures LinkOk(t, reg, Round(t, st, d), l)
  {
    var r := Round(t, st, d);
    SumRatesFrame(st.flows, r.flows, reg[l]);
  }

  lemma RoundLink(t: Topology, fs0: seq<Flow>, reg: seq<seq<nat>>, st: Fill, d: real, l: nat)
    requires Inv(t, fs0, reg, st) && d >= 0.0 && l < |reg|
    requires |st.slots[l].members| > 0 ==> Fits(t.links[l].bandwidth, st.slots[l], d)
    ensures LinkOk(t, reg, Round(t, st, d), l)
  {
    assert LinkOk(t, reg, st, l) && Listed(reg, st, l);
    if |st.slots[l].members| > 0 {
      RoundBusyLink(t, reg, st, d, l);
    } else {
      RoundIdleLink(t, reg, st, d, l);
    }
  }

  lemma RoundRates(t: Topology, fs0: seq<Flow>, st: Fill, d: real)
    requires |st.slots| == |t.links| && |st.flows| == |fs0| && Rates(fs0, st) && d >= 0.0
    ensures Rates(fs0, Round(t, st, d))
  {
    var r := Round(t, st, d);
    forall i | 0 <= i < |fs0| && fs0[i].state == Run ensures 0.0 <= r.flows[i].throughput <= r.level {
      assert r.flows[i].throughput == st.flows[i].throughput + (if i in st.active then d else 0.0);
    }
  }

  lemma RoundFrozen(t: Topology, fs0: seq<Flow>, st: Fill, d: real)
    requires |st.slots| == |t.links| && |st.flows| == |fs0| && d >= 0.0
    requires Rates(fs0, st) && FrozenOrder(fs0, st)
    requires forall i :: i in st.frozen ==> i < |fs0| && fs0[i].state == Run && i !in st.active && st.frozen[i] < st.rounds
    ensures FrozenOrder(fs0, Round(t, st, d))
  {
    var r := Round(t, st, d);
    forall i, j | 0 <= i < |fs0| && 0 <= j < |fs0| && i in r.frozen && j in r.frozen && r.frozen[i] < r.frozen[j]
      ensures r.flows[i].throughput <= r.flows[j].throughput
    {
      if j !in st.frozen {
        assert r.flows[j].throughput == r.level;
        assert i in st.frozen;
        assert r.flows[i].throughput == st.flows[i].throughput <= st.level;
      }
    }
  }

  /** Raising by the smallest headroom keeps every link within the invariant. */
  lemma RoundLinks(t: Topology, fs0: seq<Flow>, reg: seq<seq<nat>>, st: Fill)
    requires Inv(t, fs0, reg, st) && MinShare(t, st.slots, |st.slots|).Finite?
    ensures var d := MinShare(t, st.slots, |st.slots|).value;
      d >= 0.0 && forall l :: 0 <= l < |reg| ==> LinkOk(t, reg, Round(t, st, d), l)
  {
    var d := MinShare(t, st.slots, |st.slots|).value;
    forall l | 0 <= l < |st.slots| ensures st.slots[l].used <= t.links[l].bandwidth {
      assert LinkOk(t, reg, st, l);
    }
    Increment(t, st);
    forall l | 0 <= l < |reg| ensures LinkOk(t, reg, Round(t, st, d), l) {
      RoundLink(t, fs0, reg, st, d, l);
    }
  }

  /** Under positive bandwidths a round keeps links that list flows below
      capacity and frozen rates positive. */
  lemma RoundPositive(t: Topology, fs0: seq<Flow>, reg: seq<seq<nat>>, st: Fill)
    requires Inv(t, fs0, reg, st) && MinShare(t, st.slots, |st.slots|).Finite? && Positive(t, st)
    ensures Positive(t, Round(t, st, MinShare(t, st.slots, |st.slots|).value))
  {
    forall l | 0 <= l < |st.slots| ensures st.slots[l].used <= t.links[l].bandwidth {
      assert LinkOk(t, reg, st, l);
    }
    Increment(t, st);
    IncrementPositive(t, st);
  }

  /** One round keeps the allocator's invariant, and under positive bandwidths
      also keeps links below capacity and frozen rates positive. */
  lemma RoundInv(t: Topology, fs0: seq<Flow>, reg: seq<seq<nat>>, st: Fill)
    requires Inv(t, fs0, reg, st) && MinShare(t, st.slots, |st.slots|).Finite?
    ensures MinShare(t, st.slots, |st.slots|).value >= 0.0
    ensures Inv(t, fs0, reg, Round(t, st, MinShare(t, st.slots, |st.slots|).value))
    ensures Positive(t, st) ==> Positive(t, Round(t, st, MinShare(t, st.slots, |st.slots|).value))
  {
    var d := MinShare(t, st.slots, |st.slots|).value;
    RoundLinks(t, fs0, reg, st);
    RoundShape(t, fs0, reg, st, d);
    RoundRates(t, fs0, st, d);
    RoundFrozen(t, fs0, st, d);
    if Positive(t, st) {
      RoundPositive(t, fs0, reg, st);
    }
  }

  lemma {:induction false} WaterInv(t: Topology, fs0: seq<Flow>, reg: seq<seq<nat>>, st: Fill)
    requires Inv(t, fs0, reg, st) && !st.stuck
    ensures Inv(t, fs0, reg, Water(t, st))
    ensures Positive(t, st) ==> Positive(t, Water(t, st))
    decreases Busy(st.slots)
  {
    if st.active != {} {
      var m := MinShare(t, st.slots, |t.links|);
      if m.Finite? {
        RoundClears(t, st.slots);
        RoundInv(t, fs0, reg, st);
        WaterInv(t, fs0, reg, Round(t, st, m.value));
      } else {
        WaterShape(t, fs0, reg, st);
        forall l | 0 <= l < |reg| ensures LinkOk(t, reg, st.(stuck := true), l) {
          assert LinkOk(t, reg, st, l);
        }
      }
    }
  }

  /** `updateState` changes nothing but the throughputs of RUN flows. */
  lemma UpdateStateFrame(t: Topology, flows: seq<Flow>)
    requires Routed(t, flows)
    ensures var r := UpdateState(t, flows);
      && (forall i :: 0 <= i < |flows| ==> r.flows[i] == flows[i].(throughput := r.flows[i].throughput))
      && (forall i :: 0 <= i < |flows| && flows[i].state != Run ==> r.flows[i] == flows[i])
  {
    StartShape(t, flows);
    WaterShape(t, flows, Register(t, flows, |flows|), Start(t, flows));
  }

  /** The loop leaves through its "no link can be filled" break exactly when
      some RUN flow has no link at all; otherwise every RUN flow is frozen. */
  lemma UpdateStateStuck(t: Topology, flows: seq<Flow>)
    requires Routed(t, flows)
    ensures var r := UpdateState(t, flows);
      && (r.stuck <==> exists i :: 0 <= i < |flows| && flows[i].state == Run && flows[i].pathLinks == [])
      && (forall i :: 0 <= i < |flows| && flows[i].state == Run && flows[i].pathLinks != [] ==> i in r.frozen)
  {
    var reg := Register(t, flows, |flows|);
    var r := UpdateState(t, flows);
    StartShape(t, flows);
    WaterShape(t, flows, reg, Start(t, flows));
    forall i | 0 <= i < |flows| && flows[i].state == Run && flows[i].pathLinks != [] ensures i !in r.active {
      var l := flows[i].pathLinks[0];
      assert i in reg[l] && Listed(reg, r, l);
    }
    if r.stuck {
      var i :| i in r.active;
      assert flows[i].state == Run && flows[i].pathLinks == [];
    }
  }

  /** With no negative bandwidth, after `updateState` every link carries at
      most its bandwidth and its registered flows' throughputs add up to no
      more than that; all active flows share the final level and every RUN
      flow lies between 0 and it; and a flow frozen in an earlier round has no
      more throughput than one frozen later. */
  lemma UpdateStateFeasible(t: Topology, flows: seq<Flow>)
    requires Routed(t, flows) && NonNegativeBandwidths(t)
    ensures var r := UpdateState(t, flows);
      var reg := Register(t, flows, |flows|);
      && (forall l :: 0 <= l < |t.links| ==>
            SumRates(r.flows, reg[l]) <= r.slots[l].used <= t.links[l].bandwidth)
      && r.level >= 0.0
      && (forall i :: 0 <= i < |flows| && i in r.active ==> r.flows[i].throughput == r.level)
      && (forall i :: 0 <= i < |flows| && flows[i].state == Run ==> 0.0 <= r.flows[i].throughput <= r.level)
      && (forall i, j :: 0 <= i < |flows| && 0 <= j < |flows| && i in r.frozen && j in r.frozen && r.frozen[i] < r.frozen[j] ==>
            r.flows[i].throughput <= r.flows[j].throughput)
  {
    var reg := Register(t, flows, |flows|);
    var r := UpdateState(t, flows);
    StartInv(t, flows);
    WaterInv(t, flows, reg, Start(t, flows));
    InvCapacity(t, flows, reg, r);
  }

  /** A link within its bandwidth whose registered flows are RUN flows fits
      them within what it carries. */
  lemma LinkCapacity(t: Topology, fs0: seq<Flow>, reg: seq<seq<nat>>, st: Fill, l: nat)
    requires |st.slots| == |t.links| == |reg| && |st.flows| == |fs0| && l < |reg|
    requires LinkOk(t, reg, st, l) && Rates(fs0, st)
    requires forall k :: 0 <= k < |reg[l]| ==> reg[l][k] < |fs0| && fs0[reg[l][k]].state == Run
    ensures SumRates(st.flows, reg[l]) <= st.slots[l].used <= t.links[l].bandwidth
  {
    if |st.slots[l].members| > 0 {
      SumRatesBound(st.flows, reg[l], st.level);
    }
  }

  /** Under the invariant every link's registered flows fit within what it carries. */
  lemma InvCapacity(t: Topology, fs0: seq<Flow>, reg: seq<seq<nat>>, st: Fill)
    requires Inv(t, fs0, reg, st)
    ensures forall l :: 0 <= l < |t.links| ==> SumRates(st.flows, reg[l]) <= st.slots[l].used <= t.links[l].bandwidth
  {
    forall l | 0 <= l < |t.links| ensures SumRates(st.flows, reg[l]) <= st.slots[l].used <= t.links[l].bandwidth {
      LinkCapacity(t, fs0, reg, st, l);
    }
  }

  /** With positive bandwidths every RUN flow that has a link ends with a
      positive throughput. */
  lemma UpdateStatePositive(t: Topology, flows: seq<Flow>)
    requires Routed(t, flows) && PositiveBandwidths(t)
    ensures var r := UpdateState(t, flows);
      forall i :: 0 <= i < |flows| && flows[i].state == Run && flows[i].pathLinks != [] ==> r.flows[i].throughput > 0.0
  {
    var reg := Register(t, flows, |flows|);
    StartInv(t, flows);
    WaterInv(t, flows, reg, Start(t, flows));
    UpdateStateStuck(t, flows);
  }
}

=== FILE: bfs.dfy ===
/** The breadth-first search at the start of `Flow::routingECMP`
    (workload.cpp): from the source, record each reached node's hop distance
    and every predecessor through which it is reached at that distance. The
    destination is dequeued but never expanded. */
module BreadthFirst {
  import opened Graph
  import opened SeqUtil

  /** The search state: FIFO queue, hop distance of each reached node, and the
      predecessors through which each node was reached at that distance. A
      predecessor is recorded once per parallel link. */
  datatype Search = Search(queue: seq<nat>, dist: map<nat, nat>, prev: map<nat, seq<nat>>)

  /** `prev[v]`, which default-constructs an empty list for a missing key. */
  function PrevOf(prev: map<nat, seq<nat>>, v: nat): seq<nat> {
    if v in prev then prev[v] else []
  }

  /** Reached nodes are nodes of the graph and every queued node has been reached. */
  predicate Bounded(t: Topology, st: Search) {
    && (forall v :: v in st.dist ==> v < |t.nodes|)
    && (forall i :: 0 <= i < |st.queue| ==> st.queue[i] in st.dist)
  }

  /** Distances only ever get added. */
  predicate Extends(st: Search, r: Search) {
    forall v :: v in st.dist ==> v in r.dist && r.dist[v] == st.dist[v]
  }

  /** One neighbour of `cur`, reached over link `l`. */
  function Visit(t: Topology, cur: nat, l: nat, st: Search): (r: Search)
    requires Valid(t) && l < |t.links| && cur in st.dist && Bounded(t, st)
    ensures Bounded(t, r) && Extends(st, r)
    ensures |r.queue| - |st.queue| == |r.dist.Keys| - |st.dist.Keys| >= 0
  {
    var v := t.links[l].dst;
    if v !in st.dist then
      assert st.dist[v := st.dist[cur] + 1].Keys == st.dist.Keys + {v};
      Search(st.queue + [v], st.dist[v := st.dist[cur] + 1], st.prev[v := PrevOf(st.prev, v) + [cur]])
    else if st.dist[v] == st.dist[cur] + 1 then
      st.(prev := st.prev[v := PrevOf(st.prev, v) + [cur]])
    else
      st
  }

  /** Expanding the current node: its outgoing links, in adjacency order. */
  function Scan(t: Topology, cur: nat, ls: seq<nat>, st: Search): (r: Search)
    requires Valid(t) && cur in st.dist && Bounded(t, st)
    requires forall i :: 0 <= i < |ls| ==> ls[i] < |t.links|
    ensures Bounded(t, r) && Extends(st, r)
    ensures |r.queue| - |st.queue| == |r.dist.Keys| - |st.dist.Keys| >= 0
    decreases |ls|
  {
    if |ls| == 0 then st
    else Scan(t, cur, ls[1..], Visit(t, cur, ls[0], st))
  }

  /** One turn of the outer loop: dequeue the front node and, unless it is the
      destination, scan its outgoing links. */
  function Step(t: Topology, dst: nat, st: Search): (r: Search)
    requires Valid(t) && Bounded(t, st) && |st.queue| > 0
    ensures Bounded(t, r) && Extends(st, r)
    ensures |r.queue| + 1 - |st.queue| == |r.dist.Keys| - |st.dist.Keys| >= 0
  {
    var cur := st.queue[0];
    var rest := st.(queue := st.queue[1..]);
    if cur == dst then rest
    else
      AdjacencySpec(t, cur);
      Scan(t, cur, t.nodes[cur].out, rest)
  }

  /** The outer `while (!q.empty())` loop. */
  function Explore(t: Topology, dst: nat, st: Search): (r: Search)
    requires Valid(t) && Bounded(t, st)
    ensures Bounded(t, r) && Extends(st, r) && r.queue == []
    decreases |t.nodes| - |st.dist.Keys|, |st.queue|
  {
    BoundedCard(st.dist.Keys, |t.nodes|);
    if |st.queue| == 0 then st
    else
      var next := Step(t, dst, st);
      BoundedCard(next.dist.Keys, |t.nodes|);
      Explore(t, dst, next)
  }

  function Bfs(t: Topology, src: nat, dst: nat): (r: Search)
    requires Valid(t) && src < |t.nodes|
    ensures Bounded(t, r) && r.queue == []
  {
    Explore(t, dst, Search([src], map[src := 0], map[]))
  }

  /** Predecessors are one hop closer to the source. */
  ghost predicate Layered(src: nat, st: Search) {
    forall v :: v in st.prev ==>
      v in st.dist && v != src &&
      forall i :: 0 <= i < |st.prev[v]| ==> st.prev[v][i] in st.dist && st.dist[v] == st.dist[st.prev[v][i]] + 1
  }

  /** What the search maintains: the source is at distance 0, every other reached
      node has at least one recorded predecessor, and every predecessor is one
      hop closer and joined to the node by a link. */
  ghost predicate Sound(t: Topology, src: nat, st: Search) {
    && src in st.dist && st.dist[src] == 0
    && (forall v :: v in st.dist && v != src ==> v in st.prev && |st.prev[v]| > 0)
    && Layered(src, st)
    && (forall v :: v in st.prev ==> forall i :: 0 <= i < |st.prev[v]| ==> Edge(t, st.prev[v][i], v))
  }

  lemma VisitSound(t: Topology, src: nat, cur: nat, l: nat, st: Search)
    requires Valid(t) && l < |t.links| && t.links[l].src == cur && cur in st.dist && Bounded(t, st)
    requires Sound(t, src, st)
    ensures Sound(t, src, Visit(t, cur, l, st))
  {
    var v := t.links[l].dst;
    var r := Visit(t, cur, l, st);
    assert Edge(t, cur, v);
    if v in st.dist && st.dist[v] == st.dist[cur] + 1 {
      assert v != src;
    }
  }

  lemma {:induction false} ScanSound(t: Topology, src: nat, cur: nat, ls: seq<nat>, st: Search)
    requires Valid(t) && cur in st.dist && Bounded(t, st)
    requires forall i :: 0 <= i < |ls| ==> ls[i] < |t.links| && t.links[ls[i]].src == cur
    requires Sound(t, src, st)
    ensures Sound(t, src, Scan(t, cur, ls, st))
    decreases |ls|
  {
    if |ls| > 0 {
      VisitSound(t, src, cur, ls[0], st);
      ScanSound(t, src, cur, ls[1..], Visit(t, cur, ls[0], st));
    }
  }

  lemma {:induction false} ExploreSound(t: Topology, src: nat, dst: nat, st: Search)
    requires Valid(t) && Bounded(t, st) && Sound(t, src, st)
    ensures Sound(t, src, Explore(t, dst, st))
    decreases |t.nodes| - |st.dist.Keys|, |st.queue|
  {
    BoundedCard(st.dist.Keys, |t.nodes|);
    if |st.queue| > 0 {
      var cur := st.queue[0];
      if cur != dst {
        AdjacencySpec(t, cur);
        ScanSound(t, src, cur, t.nodes[cur].out, st.(queue := st.queue[1..]));
      }
      var next := Step(t, dst, st);
      BoundedCard(next.dist.Keys, |t.nodes|);
      ExploreSound(t, src, dst, next);
    }
  }

  lemma BfsSound(t: Topology, src: nat, dst: nat)
    requires Valid(t) && src < |t.nodes|
    ensures Sound(t, src, Bfs(t, src, dst))
  {
    ExploreSound(t, src, dst, Search([src], map[src := 0], map[]));
  }


  /** While expanding a node at distance d: nothing is farther than d+1, and the
      queue holds distances between d and d+1 in non-decreasing order. */
  ghost predicate Level(st: Search, d: nat) {
    && (forall x :: x in st.dist ==> st.dist[x] <= d + 1)
    && (forall i :: 0 <= i < |st.queue| ==> st.queue[i] in st.dist && d <= st.dist[st.queue[i]])
    && (forall i, j :: 0 <= i < j < |st.queue| ==> st.dist[st.queue[i]] <= st.dist[st.queue[j]])
  }

  /** Visiting a neighbour keeps the level, reaches the neighbour within one
      more hop, only appends to the queue, and queues every newly reached node. */
  lemma VisitLevel(t: Topology, cur: nat, l: nat, st: Search)
    requires Valid(t) && l < |t.links| && cur in st.dist && Bounded(t, st) && Level(st, st.dist[cur])
    ensures var r := Visit(t, cur, l, st);
      && Level(r, st.dist[cur])
      && t.links[l].dst in r.dist
      && st.queue <= r.queue
      && forall x :: x in r.dist && x !in st.dist ==> x in r.queue
  {
  }

  lemma {:induction false} ScanLevel(t: Topology, cur: nat, ls: seq<nat>, st: Search)
    requires Valid(t) && cur in st.dist && Bounded(t, st) && Level(st, st.dist[cur])
    requires forall i :: 0 <= i < |ls| ==> ls[i] < |t.links|
    ensures var r := Scan(t, cur, ls, st);
      && Level(r, st.dist[cur])
      && (forall i :: 0 <= i < |ls| ==> t.links[ls[i]].dst in r.dist)
      && st.queue <= r.queue
      && forall x :: x in r.dist && x !in st.dist ==> x in r.queue
    decreases |ls|
  {
    if |ls| > 0 {
      var st' := Visit(t, cur, ls[0], st);
      VisitLevel(t, cur, ls[0], st);
      ScanLevel(t, cur, ls[1..], st');
      var r := Scan(t, cur, ls[1..], st');
      forall i | 0 <= i < |ls| ensures t.links[ls[i]].dst in r.dist {
        if i > 0 {
          assert ls[i] == ls[1..][i - 1];
        }
      }
      forall x | x in r.dist && x !in st.dist ensures x in r.queue {
        if x in st'.dist {
          assert x in st'.queue;
          var k :| 0 <= k < |st'.queue| && st'.queue[k] == x;
          assert r.queue[k] == x;
        }
      }
    }
  }

  /** Node u has been expanded: every link out of u leads to a reached node at
      most one hop farther. */
  ghost predicate Expanded(t: Topology, st: Search, u: nat)
    requires u in st.dist
  {
    forall j :: 0 <= j < |t.links| && t.links[j].src == u ==>
      t.links[j].dst in st.dist && st.dist[t.links[j].dst] <= st.dist[u] + 1
  }

  /** Every reached node that has left the queue, other than the destination,
      has been expanded. */
  ghost predicate Closed(t: Topology, dst: nat, st: Search) {
    forall u :: u in st.dist && u !in st.queue && u != dst ==> Expanded(t, st, u)
  }

  /** The breadth-first order: the queue is sorted by distance, no reached node
      is more than one hop beyond its front, and everything dequeued is closed. */
  ghost predicate Ordered(t: Topology, dst: nat, st: Search)
    requires Bounded(t, st)
  {
    && (forall i, j :: 0 <= i < j < |st.queue| ==> st.dist[st.queue[i]] <= st.dist[st.queue[j]])
    && (|st.queue| > 0 ==> forall x :: x in st.dist ==> st.dist[x] <= st.dist[st.queue[0]] + 1)
    && Closed(t, dst, st)
  }

  lemma ExpandOrdered(t: Topology, dst: nat, st: Search)
    requires Valid(t) && Bounded(t, st) && Ordered(t, dst, st) && |st.queue| > 0 && st.queue[0] != dst
    ensures Ordered(t, dst, Step(t, dst, st))
  {
    var cur := st.queue[0];
    var rest := st.(queue := st.queue[1..]);
    AdjacencySpec(t, cur);
    var out := t.nodes[cur].out;
    assert Level(rest, st.dist[cur]);
    ScanLevel(t, cur, out, rest);
    var next := Scan(t, cur, out, rest);
    assert Expanded(t, next, cur) by {
      forall j | 0 <= j < |t.links| && t.links[j].src == cur
        ensures t.links[j].dst in next.dist && next.dist[t.links[j].dst] <= next.dist[cur] + 1
      {
        assert j in out;
        var i :| 0 <= i < |out| && out[i] == j;
      }
    }
    forall u | u in next.dist && u !in next.queue && u != dst ensures Expanded(t, next, u) {
      if u != cur {
        assert u in st.dist;
        assert u !in st.queue;
        assert Expanded(t, st, u);
      }
    }
  }

  lemma DropOrdered(t: Topology, dst: nat, st: Search)
    requires Valid(t) && Bounded(t, st) && Ordered(t, dst, st) && |st.queue| > 0 && st.queue[0] == dst
    ensures Ordered(t, dst, st.(queue := st.queue[1..]))
  {
    var q := st.queue;
    var r := st.(queue := q[1..]);
    assert forall i, j :: 0 <= i < j < |r.queue| ==> r.dist[r.queue[i]] <= r.dist[r.queue[j]] by {
      forall i, j | 0 <= i < j < |r.queue| ensures r.dist[r.queue[i]] <= r.dist[r.queue[j]] {
        assert r.queue[i] == q[i + 1] && r.queue[j] == q[j + 1];
      }
    }
    if |r.queue| > 0 {
      assert r.queue[0] == q[1];
      assert st.dist[q[0]] <= st.dist[q[1]];
    }
    forall u | u in r.dist && u !in r.queue && u != dst ensures Expanded(t, r, u) {
      assert u !in q by {
        forall k | 0 <= k < |q| ensures q[k] != u {
          if k > 0 {
            assert q[k] == r.queue[k - 1];
          }
        }
      }
    }
  }

  lemma StepOrdered(t: Topology, dst: nat, st: Search)
    requires Valid(t) && Bounded(t, st) && Ordered(t, dst, st) && |st.queue| > 0
    ensures Ordered(t, dst, Step(t, dst, st))
  {
    if st.queue[0] != dst {
      ExpandOrdered(t, dst, st);
    } else {
      DropOrdered(t, dst, st);
    }
  }

  lemma {:induction false} ExploreClosed(t: Topology, dst: nat, st: Search)
    requires Valid(t) && Bounded(t, st) && Ordered(t, dst, st)
    ensures Closed(t, dst, Explore(t, dst, st))
    decreases |t.nodes| - |st.dist.Keys|, |st.queue|
  {
    BoundedCard(st.dist.Keys, |t.nodes|);
    if |st.queue| > 0 {
      StepOrdered(t, dst, st);
      var next := Step(t, dst, st);
      BoundedCard(next.dist.Keys, |t.nodes|);
      ExploreClosed(t, dst, next);
    }
  }

  /** Once the search has finished, following a walk from the source that has
      not yet met the destination never leaves the reached nodes, and the i-th
      node of the walk is at most i hops away. */
  lemma {:induction false} ClosedWalk(t: Topology, src: nat, dst: nat, st: Search, w: seq<nat>, i: nat)
    requires Valid(t) && Bounded(t, st) && st.queue == [] && Closed(t, dst, st)
    requires src in st.dist && st.dist[src] == 0
    requires |w| > 0 && Walk(t, w, src, w[|w| - 1]) && i < |w|
    requires forall k :: 0 <= k < i ==> w[k] != dst
    ensures w[i] in st.dist && st.dist[w[i]] <= i
    decreases i
  {
    if i > 0 {
      ClosedWalk(t, src, dst, st, w, i - 1);
      assert Expanded(t, st, w[i - 1]);
      assert Edge(t, w[i - 1], w[i]);
    }
  }

  /** The search finds the destination whenever some walk leads there, and at
      a distance no larger than that walk's number of hops. */
  lemma BfsShortest(t: Topology, src: nat, dst: nat, w: seq<nat>)
    requires Valid(t) && src < |t.nodes| && Walk(t, w, src, dst)
    ensures dst in Bfs(t, src, dst).dist && Bfs(t, src, dst).dist[dst] <= |w| - 1
  {
    var st0 := Search([src], map[src := 0], map[]);
    ExploreClosed(t, dst, st0);
    var st := Bfs(t, src, dst);
    var i := FirstIndex(w, dst);
    ClosedWalk(t, src, dst, st, w, i);
  }
}

=== FILE: bigswitch.dfy ===
/** `Topology::generateOneBigSwitch(k, linkBw)`: k hosts around one switch. */
module BigSwitch {
  import opened Graph

  /** Nodes 0..k-1 are hosts, node k is the switch (tagged AGG). */
  function Nodes(k: nat): seq<Node> {
    seq(k, (i: nat) => NewNode(i, Host)) + [NewNode(k, Agg)]
  }

  /** The graph before the link loop: the nodes numbered by position, no links. */
  lemma NodesSpec(k: nat)
    ensures var t := Topology(Nodes(k), []);
      && Valid(t) && |t.nodes| == k + 1
      && (forall n :: 0 <= n <= k ==> t.nodes[n].id == n && t.nodes[n].out == [])
      && (forall n :: 0 <= n < k ==> t.nodes[n].kind == Host)
      && t.nodes[k].kind == Agg
  {
    var t := Topology(Nodes(k), []);
    forall n | 0 <= n <= k ensures t.nodes[n].id == n && t.nodes[n].out == [] {
      if n < k {
        assert t.nodes[n] == NewNode(n, Host);
      }
    }
  }

  /** The first `i` iterations of the link loop: host i-1 -> switch gets id
      i-1, the reverse link switch -> host i-1 gets id i-1+k. */
  function Wire(t: Topology, k: nat, i: nat, bw: real): (r: Topology)
    requires |t.nodes| == k + 1 && i <= k
    ensures |r.nodes| == k + 1
    decreases i
  {
    if i == 0 then t
    else
      var t' := Wire(t, k, i - 1, bw);
      AddLink(AddLink(t', i - 1, i - 1, k, bw), i - 1 + k, k, i - 1, bw)
  }

  /** Wiring never renumbers or retags a node. */
  lemma {:induction false} WireKeepsNodes(t: Topology, k: nat, i: nat, bw: real)
    requires |t.nodes| == k + 1 && i <= k
    ensures var r := Wire(t, k, i, bw);
      forall n :: 0 <= n <= k ==> r.nodes[n].id == t.nodes[n].id && r.nodes[n].kind == t.nodes[n].kind
  {
    if i > 0 {
      WireKeepsNodes(t, k, i - 1, bw);
      var t' := Wire(t, k, i - 1, bw);
      var t1 := AddLink(t', i - 1, i - 1, k, bw);
      var r := AddLink(t1, i - 1 + k, k, i - 1, bw);
      forall n | 0 <= n <= k ensures r.nodes[n].id == t'.nodes[n].id && r.nodes[n].kind == t'.nodes[n].kind {
        assert t1.nodes[n].id == t'.nodes[n].id && t1.nodes[n].kind == t'.nodes[n].kind;
      }
    }
  }

  /** Wiring keeps the graph well-formed. */
  lemma {:induction false} WireValid(t: Topology, k: nat, i: nat, bw: real)
    requires |t.nodes| == k + 1 && i <= k && Valid(t)
    ensures Valid(Wire(t, k, i, bw))
  {
    if i > 0 {
      var t' := Wire(t, k, i - 1, bw);
      WireValid(t, k, i - 1, bw);
      AddPairValid(t', i - 1, i - 1 + k, i - 1, k, bw);
      assert Wire(t, k, i, bw) == AddLink(AddLink(t', i - 1, i - 1, k, bw), i - 1 + k, k, i - 1, bw);
    }
  }

  /** After i iterations: 2i links of bandwidth bw, stored as uplink h then downlink h. */
  lemma {:induction false} WireLinks(t: Topology, k: nat, i: nat, bw: real)
    requires |t.nodes| == k + 1 && i <= k && t.links == []
    ensures var r := Wire(t, k, i, bw);
      && |r.links| == 2 * i
      && (forall h :: 0 <= h < i ==> r.links[2 * h] == Link(h, h, k, bw) && r.links[2 * h + 1] == Link(h + k, k, h, bw))
      && (forall j :: 0 <= j < |r.links| ==> r.links[j].bandwidth == bw)
  {
    if i > 0 {
      WireLinks(t, k, i - 1, bw);
      var t' := Wire(t, k, i - 1, bw);
      var r := Wire(t, k, i, bw);
      assert r.links == t'.links + [Link(i - 1, i - 1, k, bw), Link(i - 1 + k, k, i - 1, bw)];
      forall h | 0 <= h < i
        ensures r.links[2 * h] == Link(h, h, k, bw) && r.links[2 * h + 1] == Link(h + k, k, h, bw)
      {
        if h < i - 1 {
          assert r.links[2 * h] == t'.links[2 * h];
          assert r.links[2 * h + 1] == t'.links[2 * h + 1];
        }
      }
      forall j | 0 <= j < |r.links| ensures r.links[j].bandwidth == bw {
        if j < |t'.links| {
          assert r.links[j] == t'.links[j];
        }
      }
    }
  }

  /** The switch's downlinks 1, 3, ..., 2i-1. */
  function Downlinks(i: nat): (r: seq<nat>)
  {
    if i == 0 then [] else Downlinks(i - 1) + [2 * (i - 1) + 1]
  }

  lemma {:induction false} DownlinksSpec(i: nat)
    ensures |Downlinks(i)| == i && forall h :: 0 <= h < i ==> Downlinks(i)[h] == 2 * h + 1
  {
    if i > 0 {
      DownlinksSpec(i - 1);
    }
  }

  /** Hosts below i own their uplink, the others nothing yet, and the switch
      owns the first i downlinks. */
  ghost predicate WiredOut(t: Topology, k: nat, i: nat)
    requires |t.nodes| == k + 1
  {
    && (forall h :: 0 <= h < i && h < k ==> t.nodes[h].out == [2 * h])
    && (forall h :: i <= h < k ==> t.nodes[h].out == [])
    && t.nodes[k].out == Downlinks(i)
  }

  /** One iteration of the link loop extends the adjacency lists by one uplink and one downlink. */
  lemma WireOutStep(t: Topology, k: nat, i: nat, bw: real)
    requires |t.nodes| == k + 1 && 0 < i <= k && |t.links| == 2 * (i - 1)
    requires WiredOut(t, k, i - 1)
    ensures WiredOut(AddLink(AddLink(t, i - 1, i - 1, k, bw), i - 1 + k, k, i - 1, bw), k, i)
  {
    var t1 := AddLink(t, i - 1, i - 1, k, bw);
    var r := AddLink(t1, i - 1 + k, k, i - 1, bw);
    forall h | 0 <= h < i ensures r.nodes[h].out == [2 * h] {
      assert r.nodes[h].out == t1.nodes[h].out;
    }
    forall h | i <= h < k ensures r.nodes[h].out == [] {
      assert r.nodes[h].out == t1.nodes[h].out;
    }
  }

  lemma {:induction false} WireOut(t: Topology, k: nat, i: nat, bw: real)
    requires |t.nodes| == k + 1 && i <= k && t.links == []
    requires forall n :: 0 <= n <= k ==> t.nodes[n].out == []
    ensures WiredOut(Wire(t, k, i, bw), k, i)
  {
    if i > 0 {
      WireOut(t, k, i - 1, bw);
      WireLinks(t, k, i - 1, bw);
      WireOutStep(Wire(t, k, i - 1, bw), k, i, bw);
    }
  }

  /** The generated graph: k+1 nodes numbered by position, 2k links of bandwidth
      `bw` stored in the order i, i+k for each host i, host i's only outgoing
      link is its uplink, and the switch's outgoing links are the downlinks in
      host order. Any previous graph is discarded: the result depends only on k and bw. */
  function Generate(k: nat, bw: real): (t: Topology)
    ensures Valid(t)
    ensures |t.nodes| == k + 1 && |t.links| == 2 * k
    ensures forall n :: 0 <= n <= k ==> t.nodes[n].id == n
    ensures forall n :: 0 <= n < k ==> t.nodes[n].kind == Host
    ensures t.nodes[k].kind == Agg
    ensures forall i :: 0 <= i < k ==> t.links[2 * i] == Link(i, i, k, bw)
    ensures forall i :: 0 <= i < k ==> t.links[2 * i + 1] == Link(i + k, k, i, bw)
    ensures forall j :: 0 <= j < |t.links| ==> t.links[j].bandwidth == bw
    ensures forall i :: 0 <= i < k ==> t.nodes[i].out == [2 * i]
    ensures |t.nodes[k].out| == k && forall i :: 0 <= i < k ==> t.nodes[k].out[i] == 2 * i + 1
  {
    var t0 := Topology(Nodes(k), []);
    NodesSpec(k);
    WireKeepsNodes(t0, k, k, bw);
    WireValid(t0, k, k, bw);
    WireLinks(t0, k, k, bw);
    WireOut(t0, k, k, bw);
    DownlinksSpec(k);
    Wire(t0, k, k, bw)
  }
}

=== FILE: ereal.dfy ===
/** Reals extended with +infinity, the value the simulator obtains from
    numeric_limits<double>::infinity() for "no event" and for an empty minimum. */
module ExtReal {

  datatype EReal = Finite(value: real) | Infinity

  /** The strict order `a < b` of the extended reals. */
  predicate Less(a: EReal, b: EReal) {
    match a
    case Infinity => false
    case Finite(x) => b.Infinity? || x < b.value
  }

  /** `a <= b` */
  predicate AtMost(a: EReal, b: EReal) {
    !Less(b, a)
  }

  /** One step of a running minimum: x replaces m only when it is strictly smaller. */
  function MinOf(m: EReal, x: EReal): (r: EReal)
    ensures r == m || r == x
    ensures AtMost(r, m) && AtMost(r, x)
    ensures r.Infinity? <==> m.Infinity? && x.Infinity?
  {
    if Less(x, m) then x else m
  }
}

=== FILE: example.dfy ===
/** The configuration of main.cpp: one big switch with two hosts and links of
    100, the two simple flows, and ECMP routing. Node 0 and node 1 are the
    hosts and node 2 the switch. */
module Example {
  import opened ExtReal
  import opened Graph
  import opened Flows
  import opened Routing
  import BigSwitch
  import opened Workload
  import opened WaterFill
  import opened Simulator

  const Bw: real := 100.0

  /** The links of the big switch with two hosts, in creation order. */
  const NetLinks: seq<Link> := [Link(0, 0, 2, Bw), Link(2, 2, 0, Bw), Link(1, 1, 2, Bw), Link(3, 2, 1, Bw)]

  /** `generateOneBigSwitch(2, 100.0)`. */
  function Net(): Topology {
    BigSwitch.Generate(2, Bw)
  }

  /** What the proofs use of the big switch with two hosts. */
  predicate IsNet(t: Topology) {
    Valid(t) && |t.nodes| == 3 && t.links == NetLinks
  }

  /** Uplinks 0 and 1, downlinks 2 and 3, stored as 0, 2, 1, 3; each host owns
      its uplink and the switch owns both downlinks. */
  lemma NetShape()
    ensures IsNet(Net())
    ensures Net().nodes[0].out == [0] && Net().nodes[1].out == [2] && Net().nodes[2].out == [1, 3]
  {
    var t := Net();
    assert t.links[2 * 0] == Link(0, 0, 2, Bw) && t.links[2 * 0 + 1] == Link(0 + 2, 2, 0, Bw);
    assert t.links[2 * 1] == Link(1, 1, 2, Bw) && t.links[2 * 1 + 1] == Link(1 + 2, 2, 1, Bw);
    assert t.nodes[2].out[0] == 2 * 0 + 1 && t.nodes[2].out[1] == 2 * 1 + 1;
  }

  /** The only links out of a host go to the switch, and the only link into
      host 1 comes from the switch. */
  lemma NetEdges(t: Topology, u: nat, v: nat)
    requires IsNet(t)
    ensures Edge(t, u, v) <==> (u == 0 && v == 2) || (u == 1 && v == 2) || (u == 2 && v == 0) || (u == 2 && v == 1)
  {
    if (u == 0 && v == 2) || (u == 1 && v == 2) || (u == 2 && v == 0) || (u == 2 && v == 1) {
      var j := if u == 0 then 0 else if u == 1 then 2 else if v == 0 then 1 else 3;
      assert t.links[j].src == u && t.links[j].dst == v;
    }
  }

  /** The two flows of `generateSimpleFlows` once routed. */
  const F0: Flow := Flow(0, 0, 1, 100.0, 0.0, NotStart, [0, 2, 1], [0, 3], 0.0, 0.0)
  const F1: Flow := Flow(1, 2, 1, 30.0, 0.5, NotStart, [2, 1], [3], 0.0, 0.0)

  /** `generateSimpleFlows` followed by `routing` on this graph: whatever the
      random numbers, flow 0 is routed 0 -> 2 -> 1 over links 0 and 3 and
      flow 1 is routed 2 -> 1 over link 3; nothing else about the flows changes. */
  lemma Routes(t: Topology, rs: seq<nat>)
    requires IsNet(t) && |rs| == 2
    ensures RouteAll(t, SimpleFlows(t), rs) == [F0, F1]
  {
    var flows := SimpleFlows(t);
    var fs := RouteAll(t, flows, rs);
    RouteHostToHost(t, flows[0], rs[0]);
    RouteSwitchToHost(t, flows[1], rs[1]);
    assert fs[0] == F0;
    assert fs[1] == F1;
  }

  /** The lowest link from host 0 to the switch is link 0, and the lowest from
      the switch to host 1 is link 3. */
  lemma NetLowest(t: Topology, l: nat)
    requires IsNet(t)
    ensures LowestLink(t, 0, 2, l) ==> l == 0
    ensures LowestLink(t, 2, 1, l) ==> l == 3
  {
  }

  /** A walk from host 0 to host 1 has at least three nodes, the middle one the switch. */
  lemma HostWalk(t: Topology, w: seq<nat>)
    requires IsNet(t) && Walk(t, w, 0, 1) && |w| <= 3
    ensures w == [0, 2, 1]
  {
    NetEdges(t, w[0], w[1]);
    NetEdges(t, w[1], w[2]);
  }

  /** Routing from host 0 to host 1 takes the shortest walk, which runs through the switch. */
  lemma RouteHostPath(t: Topology, f: Flow, r: nat)
    requires IsNet(t) && f.src == 0 && f.dst == 1
    ensures RouteEcmp(t, f, r).path == [0, 2, 1]
  {
    NetEdges(t, 0, 2);
    NetEdges(t, 2, 1);
    assert Walk(t, [0, 2, 1], 0, 1);
    RouteEcmpShortest(t, f, r, [0, 2, 1]);
    HostWalk(t, RouteEcmp(t, f, r).path);
  }

  /** The links along 0 -> 2 -> 1 are links 0 and 3. */
  lemma HostLinks(t: Topology, ls: seq<nat>)
    requires IsNet(t) && |ls| == 2 && LowestLink(t, 0, 2, ls[0]) && LowestLink(t, 2, 1, ls[1])
    ensures ls == [0, 3]
  {
    NetLowest(t, ls[0]);
    NetLowest(t, ls[1]);
  }

  /** Flow 0's route and links, for any random number. */
  lemma RouteHostToHost(t: Topology, f: Flow, r: nat)
    requires IsNet(t) && f.src == 0 && f.dst == 1 && f.pathLinks == []
    ensures var g := RouteEcmp(t, f, r); g.path == [0, 2, 1] && g.pathLinks == [0, 3]
  {
    var g := RouteEcmp(t, f, r);
    RouteHostPath(t, f, r);
    RouteEcmpLinks(t, f, r);
    assert |g.pathLinks| == 2;
    assert LowestLink(t, g.path[0], g.path[1], g.pathLinks[0]);
    assert LowestLink(t, g.path[1], g.path[2], g.pathLinks[1]);
    HostLinks(t, g.pathLinks);
  }

  /** Routing from the switch to host 1 takes the direct link. */
  lemma RouteSwitchPath(t: Topology, f: Flow, r: nat)
    requires IsNet(t) && f.src == 2 && f.dst == 1
    ensures RouteEcmp(t, f, r).path == [2, 1]
  {
    NetEdges(t, 2, 1);
    assert Walk(t, [2, 1], 2, 1);
    RouteEcmpShortest(t, f, r, [2, 1]);
  }

  /** Flow 1's route: the switch reaches host 1 over its downlink, link 3. */
  lemma RouteSwitchToHost(t: Topology, f: Flow, r: nat)
    requires IsNet(t) && f.src == 2 && f.dst == 1 && f.pathLinks == []
    ensures var g := RouteEcmp(t, f, r); g.path == [2, 1] && g.pathLinks == [3]
  {
    var g := RouteEcmp(t, f, r);
    RouteSwitchPath(t, f, r);
    RouteEcmpLinks(t, f, r);
    assert |g.pathLinks| == 1;
    assert LowestLink(t, g.path[0], g.path[1], g.pathLinks[0]);
    NetLowest(t, g.pathLinks[0]);
  }

  /** With no RUN flow the allocator changes nothing. */
  lemma Idle(t: Topology, flows: seq<Flow>)
    requires Routed(t, flows) && forall i :: 0 <= i < |flows| ==> flows[i].state != Run
    ensures UpdateState(t, flows).flows == flows
  {
    UpdateStateFrame(t, flows);
  }

  /** Registration when flow 0 runs over links 0 and 3: link 0 and link 3 list it. */
  lemma RegisterFirst(t: Topology, flows: seq<Flow>)
    requires t.links == NetLinks && Routed(t, flows)
    requires |flows| == 2 && flows[0].state == Run && flows[0].pathLinks == [0, 3]
    ensures Register(t, flows, 1) == [[0], [], [], [0]]
  {
    var empty := Register(t, flows, 0);
    assert empty == [[], [], [], []];
    assert [0, 3][1..] == [3] && [3][1..] == [];
    var one := empty[0 := empty[0] + [0]];
    assert one[0] == [0] && one[1] == [] && one[2] == [] && one[3] == [];
    var two := one[3 := one[3] + [0]];
    assert two[0] == [0] && two[1] == [] && two[2] == [] && two[3] == [0];
    assert Enlist(empty, 0, [0, 3]) == two;
  }

  /** A fill that freezes every active flow in its first round ends there. */
  lemma WaterOnce(t: Topology, st: Fill, d: real)
    requires |st.slots| == |t.links| && !st.stuck && st.active != {}
    requires MinShare(t, st.slots, |t.links|) == Finite(d) && Round(t, st, d).active == {}
    ensures Water(t, st) == Round(t, st, d)
  {
  }

  /** One round raising both flows by d, with both flows active. */
  lemma RoundBoth(t: Topology, st: Fill, d: real)
    requires |st.slots| == |t.links| && |st.flows| == 2 && st.active == {0, 1}
    ensures var r := Round(t, st, d);
      r.flows == [st.flows[0].(throughput := st.flows[0].throughput + d), st.flows[1].(throughput := st.flows[1].throughput + d)]
  {
    var r := Round(t, st, d);
    assert r.flows[0] == st.flows[0].(throughput := st.flows[0].throughput + d);
    assert r.flows[1] == st.flows[1].(throughput := st.flows[1].throughput + d);
  }

  /** One round raising flow 0 alone by d. */
  lemma RoundFirst(t: Topology, st: Fill, d: real)
    requires |st.slots| == |t.links| && |st.flows| == 2 && st.active == {0}
    ensures var r := Round(t, st, d);
      r.flows == [st.flows[0].(throughput := st.flows[0].throughput + d), st.flows[1]]
  {
    var r := Round(t, st, d);
    assert r.flows[0] == st.flows[0].(throughput := st.flows[0].throughput + d);
    assert r.flows[1] == st.flows[1];
  }

  /** The slots when flow 0 runs alone. */
  const SoloSlots: seq<Slot> := [Slot(0.0, [0]), Slot(0.0, []), Slot(0.0, []), Slot(0.0, [0])]

  /** Reset and registration with only flow 0 running. */
  lemma SoloStart(t: Topology, flows: seq<Flow>)
    requires t.links == NetLinks && Routed(t, flows)
    requires |flows| == 2 && flows[0].state == Run && flows[0].pathLinks == [0, 3] && flows[1].state != Run
    ensures var st := Start(t, flows);
      && st.slots == SoloSlots && !st.stuck && st.active == {0}
      && st.flows == [flows[0].(throughput := 0.0), flows[1]]
  {
    RegisterFirst(t, flows);
    var st := Start(t, flows);
    assert st.active == {0};
  }

  /** Each link of flow 0 offers it 100. */
  lemma SoloShare(t: Topology)
    requires t.links == NetLinks
    ensures MinShare(t, SoloSlots, 4) == Finite(100.0)
  {
    assert MinShare(t, SoloSlots, 1) == Finite(100.0);
    assert MinShare(t, SoloSlots, 3) == Finite(100.0);
  }

  /** Raising flow 0 by 100 fills link 0 and freezes it. */
  lemma SoloReleased(t: Topology)
    requires t.links == NetLinks
    ensures {0} - Released(t, SoloSlots, 100.0) == {}
  {
    assert Fills(t.links[0].bandwidth, SoloSlots[0], 100.0);
    assert 0 in Released(t, SoloSlots, 100.0);
  }

  /** Flow 0 alone takes the full 100 of its links in one round. */
  lemma Solo(t: Topology, flows: seq<Flow>)
    requires t.links == NetLinks && Routed(t, flows)
    requires |flows| == 2 && flows[0].state == Run && flows[0].pathLinks == [0, 3] && flows[1].state != Run
    ensures UpdateState(t, flows).flows == [flows[0].(throughput := 100.0), flows[1]]
    ensures UpdateState(t, flows).rounds == 1
  {
    var st := Start(t, flows);
    SoloStart(t, flows);
    SoloShare(t);
    SoloReleased(t);
    RoundFirst(t, st, 100.0);
    WaterOnce(t, st, 100.0);
  }

  /** The slots when both flows run: link 3 carries both. */
  const DuoSlots: seq<Slot> := [Slot(0.0, [0]), Slot(0.0, []), Slot(0.0, []), Slot(0.0, [0, 1])]

  /** Reset and registration with both flows running. */
  lemma DuoStart(t: Topology, flows: seq<Flow>)
    requires t.links == NetLinks && Routed(t, flows)
    requires |flows| == 2 && flows[0].state == Run && flows[0].pathLinks == [0, 3]
    requires flows[1].state == Run && flows[1].pathLinks == [3]
    ensures var st := Start(t, flows);
      && st.slots == DuoSlots && !st.stuck && st.active == {0, 1}
      && st.flows == [flows[0].(throughput := 0.0), flows[1].(throughput := 0.0)]
  {
    RegisterFirst(t, flows);
    var one: seq<seq<nat>> := [[0], [], [], [0]];
    assert [3][1..] == [];
    var two := one[3 := one[3] + [1]];
    assert two[0] == [0] && two[1] == [] && two[2] == [] && two[3] == [0, 1];
    assert Register(t, flows, 2) == Enlist(one, 1, [3]) == two;
    var st := Start(t, flows);
    assert st.active == {0, 1};
  }

  /** Link 0 offers 100 and link 3 offers 50 to each of its two flows. */
  lemma DuoShare(t: Topology)
    requires t.links == NetLinks
    ensures MinShare(t, DuoSlots, 4) == Finite(50.0)
  {
    assert MinShare(t, DuoSlots, 1) == Finite(100.0);
    assert MinShare(t, DuoSlots, 3) == Finite(100.0);
  }

  /** Raising both flows by 50 fills link 3 and freezes both. */
  lemma DuoReleased(t: Topology)
    requires t.links == NetLinks
    ensures {0, 1} - Released(t, DuoSlots, 50.0) == {}
  {
    assert Fills(t.links[3].bandwidth, DuoSlots[3], 50.0);
    assert 0 in Released(t, DuoSlots, 50.0) && 1 in Released(t, DuoSlots, 50.0);
  }

  /** Sharing link 3, both flows get 50: the link fills and freezes both in the first round. */
  lemma Duo(t: Topology, flows: seq<Flow>)
    requires t.links == NetLinks && Routed(t, flows)
    requires |flows| == 2 && flows[0].state == Run && flows[0].pathLinks == [0, 3]
    requires flows[1].state == Run && flows[1].pathLinks == [3]
    ensures UpdateState(t, flows).flows == [flows[0].(throughput := 50.0), flows[1].(throughput := 50.0)]
    ensures UpdateState(t, flows).rounds == 1
  {
    var st := Start(t, flows);
    DuoStart(t, flows);
    DuoShare(t);
    DuoReleased(t);
    RoundBoth(t, st, 50.0);
    WaterOnce(t, st, 50.0);
  }

  /** The flows at the start of each pass of the loop, and after reallocation. */
  const A0: seq<Flow> := [F0, F1]
  const B0: seq<Flow> := [F0.(state := Run, remaining := 100.0), F1]
  const B1: seq<Flow> := [B0[0].(throughput := 100.0), F1]
  const C0: seq<Flow> := [B1[0].(remaining := 50.0), F1.(state := Run, remaining := 30.0)]
  const C1: seq<Flow> := [C0[0].(throughput := 50.0), C0[1].(throughput := 50.0)]
  const D0: seq<Flow> := [C1[0].(remaining := 20.0), C1[1].(state := Complete, remaining := 0.0)]
  const D1: seq<Flow> := [D0[0].(throughput := 100.0), D0[1]]
  const E0: seq<Flow> := [D1[0].(state := Complete, remaining := 0.0), D1[1]]

  /** The first pass at 0: nothing runs yet, and flow 0 starts at once. */
  lemma StepA(t: Topology)
    requires t.links == NetLinks
    ensures Routed(t, A0) && Routed(t, B0)
    ensures var fs := UpdateState(t, A0).flows;
      fs == A0 && Horizon(fs, 0.0, 2) == Finite(0.0) && ProgressAll(fs, 0.0, 0.0) == B0
  {
    Idle(t, A0);
    assert Horizon(A0, 0.0, 2) == Finite(0.0);
    assert ProgressAll(A0, 0.0, 0.0) == B0;
  }

  /** The second pass at 0: flow 0 alone gets 100 until flow 1 starts at 0.5, with 50 left. */
  lemma StepB(t: Topology)
    requires t.links == NetLinks
    ensures Routed(t, B0) && Routed(t, C0)
    ensures var fs := UpdateState(t, B0).flows;
      fs == B1 && Horizon(fs, 0.0, 2) == Finite(0.5) && ProgressAll(fs, 0.0, 0.5) == C0
  {
    Solo(t, B0);
    assert Horizon(B1, 0.0, 2) == Finite(0.5);
    assert ProgressAll(B1, 0.0, 0.5) == C0;
  }

  /** The pass at 0.5: the flows share link 3 at 50 each; flow 1 finishes its
      30 in 0.6, so at 1.1 it has completed and flow 0 has 20 left. */
  lemma StepC(t: Topology)
    requires t.links == NetLinks
    ensures Routed(t, C0) && Routed(t, D0)
    ensures var fs := UpdateState(t, C0).flows;
      fs == C1 && Horizon(fs, 0.5, 2) == Finite(0.6) && ProgressAll(fs, 0.5, 0.6) == D0
  {
    Duo(t, C0);
    assert Horizon(C1, 0.5, 2) == Finite(0.6);
    assert ProgressAll(C1, 0.5, 0.6) == D0;
  }

  /** The pass at 1.1: flow 0 alone gets 100 and finishes its 20 in 0.2. */
  lemma StepD(t: Topology)
    requires t.links == NetLinks
    ensures Routed(t, D0) && Routed(t, E0)
    ensures var fs := UpdateState(t, D0).flows;
      fs == D1 && Horizon(fs, 1.1, 2) == Finite(0.2) && ProgressAll(fs, 1.1, 0.2) == E0
  {
    Solo(t, D0);
    assert Horizon(D1, 1.1, 2) == Finite(0.2);
    assert ProgressAll(D1, 1.1, 0.2) == E0;
  }

  /** Each pass of the loop hands on to the next one. */
  lemma PassA(t: Topology)
    requires t.links == NetLinks
    ensures Routed(t, A0) && Routed(t, B0)
    ensures RunFrom(t, A0, 0.0) == Outcome(RunFrom(t, B0, 0.0).flows, [0.0] + RunFrom(t, B0, 0.0).clock)
  {
    StepA(t);
  }

  lemma PassB(t: Topology)
    requires t.links == NetLinks
    ensures Routed(t, B0) && Routed(t, C0)
    ensures RunFrom(t, B0, 0.0) == Outcome(RunFrom(t, C0, 0.5).flows, [0.0] + RunFrom(t, C0, 0.5).clock)
  {
    StepB(t);
  }

  lemma PassC(t: Topology)
    requires t.links == NetLinks
    ensures Routed(t, C0) && Routed(t, D0)
    ensures RunFrom(t, C0, 0.5) == Outcome(RunFrom(t, D0, 1.1).flows, [0.5] + RunFrom(t, D0, 1.1).clock)
  {
    StepC(t);
  }

  lemma PassD(t: Topology)
    requires t.links == NetLinks
    ensures Routed(t, D0) && Routed(t, E0)
    ensures RunFrom(t, D0, 1.1) == Outcome(RunFrom(t, E0, 1.3).flows, [1.1] + RunFrom(t, E0, 1.3).clock)
  {
    StepD(t);
  }

  /** The last pass, at 1.3: nothing runs, so no event is left. */
  lemma PassE(t: Topology)
    requires t.links == NetLinks
    ensures Routed(t, E0) && RunFrom(t, E0, 1.3) == Outcome(E0, [1.3])
  {
    Idle(t, E0);
    assert Horizon(E0, 1.3, 2) == Infinity;
  }

  /** The clock lists, assembled one pass at a time. */
  lemma Clocks()
    ensures [1.1] + [1.3] == [1.1, 1.3]
    ensures [0.5] + [1.1, 1.3] == [0.5, 1.1, 1.3]
    ensures [0.0] + [0.5, 1.1, 1.3] == [0.0, 0.5, 1.1, 1.3]
    ensures [0.0] + [0.0, 0.5, 1.1, 1.3] == [0.0, 0.0, 0.5, 1.1, 1.3]
  {
    var a := [1.1] + [1.3];
    assert |a| == 2 && a[0] == 1.1 && a[1] == 1.3;
    var b := [0.5] + a;
    assert |b| == 3 && b[0] == 0.5 && b[1] == 1.1 && b[2] == 1.3;
    var c := [0.0] + b;
    assert |c| == 4 && c[0] == 0.0 && c[1] == 0.5 && c[2] == 1.1 && c[3] == 1.3;
    var d := [0.0] + c;
    assert |d| == 5 && d[0] == 0.0 && d[1] == 0.0 && d[2] == 0.5 && d[3] == 1.1 && d[4] == 1.3;
  }

  /** A pass prepends its time to the rest of the run. */
  lemma Join(o: Outcome, p: Outcome, now: real, fs: seq<Flow>, c: seq<real>)
    requires o == Outcome(p.flows, [now] + p.clock) && p == Outcome(fs, c)
    ensures o == Outcome(fs, [now] + c)
  {
  }

  /** The run from each pass on, assembled from the last pass backwards. */
  lemma FromD(t: Topology)
    requires t.links == NetLinks
    ensures Routed(t, D0) && RunFrom(t, D0, 1.1).flows == E0
    ensures RunFrom(t, D0, 1.1).clock == [1.1, 1.3]
  {
    PassD(t);
    PassE(t);
    Join(RunFrom(t, D0, 1.1), RunFrom(t, E0, 1.3), 1.1, E0, [1.3]);
    Clocks();
  }

  lemma FromC(t: Topology)
    requires t.links == NetLinks
    ensures Routed(t, C0) && RunFrom(t, C0, 0.5).flows == E0
    ensures RunFrom(t, C0, 0.5).clock == [0.5, 1.1, 1.3]
  {
    PassC(t);
    FromD(t);
    Join(RunFrom(t, C0, 0.5), RunFrom(t, D0, 1.1), 0.5, E0, [1.1, 1.3]);
    Clocks();
  }

  lemma FromB(t: Topology)
    requires t.links == NetLinks
    ensures Routed(t, B0) && RunFrom(t, B0, 0.0).flows == E0
    ensures RunFrom(t, B0, 0.0).clock == [0.0, 0.5, 1.1, 1.3]
  {
    PassB(t);
    FromC(t);
    Join(RunFrom(t, B0, 0.0), RunFrom(t, C0, 0.5), 0.0, E0, [0.5, 1.1, 1.3]);
    Clocks();
  }

  lemma FromA(t: Topology)
    requires t.links == NetLinks
    ensures Routed(t, A0) && RunFrom(t, A0, 0.0).flows == E0
    ensures RunFrom(t, A0, 0.0).clock == [0.0, 0.0, 0.5, 1.1, 1.3]
  {
    PassA(t);
    FromB(t);
    Join(RunFrom(t, A0, 0.0), RunFrom(t, B0, 0.0), 0.0, E0, [0.0, 0.5, 1.1, 1.3]);
    Clocks();
  }

  /** main.cpp: on the big switch with two hosts, routing the simple flows
      with any random numbers and running the simulator ends at global time
      1.3 with both flows complete. */
  lemma Simulation(rs: seq<nat>)
    requires |rs| == 2
    ensures Routed(Net(), RouteAll(Net(), SimpleFlows(Net()), rs))
    ensures var o := Simulate(Net(), RouteAll(Net(), SimpleFlows(Net()), rs));
      && o.clock == [0.0, 0.0, 0.5, 1.1, 1.3] && o.clock[|o.clock| - 1] == 1.3
      && |o.flows| == 2 && o.flows[0].state == Complete && o.flows[1].state == Complete
      && o.flows[0].remaining == 0.0 && o.flows[1].remaining == 0.0
  {
    NetShape();
    Routes(Net(), rs);
    FromA(Net());
  }
}

=== FILE: fattree.dfy ===
/** `Topology::generateFatTree(k, pods, linkBw)`: hosts, TOR, AGG and CORE
    layers, with h = k/2 TORs and AGGs per pod, h hosts per TOR and h*h cores. */
module FatTree {
  import opened Graph
  import opened SeqUtil

  function Half(k: nat): nat { k / 2 }

  // Node layout: all hosts, then all TORs, then all AGGs, then the cores.
  function TorBase(h: nat, pods: nat): nat { pods * h * h }
  function AggBase(h: nat, pods: nat): nat { TorBase(h, pods) + pods * h }
  function CoreBase(h: nat, pods: nat): nat { AggBase(h, pods) + pods * h }
  function NodeCount(h: nat, pods: nat): nat { CoreBase(h, pods) + h * h }

  /** `count` consecutive nodes of one kind, numbered from `start`. */
  function Layer(start: nat, count: nat, kind: NodeKind): seq<Node> {
    seq(count, (j: nat) => NewNode(start + j, kind))
  }

  function Nodes(h: nat, pods: nat): seq<Node> {
    Layer(0, pods * h * h, Host)
    + Layer(TorBase(h, pods), pods * h, Tor)
    + Layer(AggBase(h, pods), pods * h, Agg)
    + Layer(CoreBase(h, pods), h * h, Core)
  }

  /** The cores an AGG switch connects to: from c upwards in steps of h, below `limit`. */
  function CoreLoop(c: nat, h: nat, limit: nat): seq<nat>
    requires h > 0
    decreases limit - c
  {
    if c >= limit then [] else [c] + CoreLoop(c + h, h, limit)
  }

  /** The endpoints of one forward link; the generator also adds the reverse. */
  datatype Span = Span(src: nat, dst: nat)

  /** Endpoints of the forward links, in the order of the three link loops.
      Loop 1: host (p, t, x), numbered by the running counter, to TOR t of pod p. */
  function HostTorRow(h: nat, pods: nat, p: nat): seq<Span> {
    Flatten(seq(h, (t: nat) => seq(h, (x: nat) => Span((p * h + t) * h + x, TorBase(h, pods) + p * h + t))))
  }

  function HostTorPairs(h: nat, pods: nat): seq<Span> {
    Flatten(seq(pods, (p: nat) => HostTorRow(h, pods, p)))
  }

  /** Loop 2: TOR t of pod p to every AGG a of the same pod. */
  function TorAggRow(h: nat, pods: nat, p: nat): seq<Span> {
    Flatten(seq(h, (t: nat) => seq(h, (a: nat) => Span(TorBase(h, pods) + p * h + t, AggBase(h, pods) + p * h + a))))
  }

  function TorAggPairs(h: nat, pods: nat): seq<Span> {
    Flatten(seq(pods, (p: nat) => TorAggRow(h, pods, p)))
  }

  /** Loop 3: AGG a of pod p to cores a, a+h, a+2h, ... */
  function AggCoreRow(h: nat, pods: nat, p: nat, a: nat): seq<Span>
    requires h > 0
  {
    var cs := CoreLoop(a, h, h * h);
    seq(|cs|, (i: nat) requires i < |cs| => Span(AggBase(h, pods) + p * h + a, CoreBase(h, pods) + cs[i]))
  }

  function AggCorePod(h: nat, pods: nat, p: nat): seq<Span> {
    Flatten(seq(h, (a: nat) requires a < h => AggCoreRow(h, pods, p, a)))
  }

  function AggCorePairs(h: nat, pods: nat): seq<Span> {
    Flatten(seq(pods, (p: nat) => AggCorePod(h, pods, p)))
  }

  function Pairs(h: nat, pods: nat): seq<Span> {
    HostTorPairs(h, pods) + TorAggPairs(h, pods) + AggCorePairs(h, pods)
  }

  predicate PairsFit(pairs: seq<Span>, n: nat) {
    forall i :: 0 <= i < |pairs| ==> pairs[i].src < n && pairs[i].dst < n
  }

  /** Each pair (s, d) adds link s -> d and then the reverse d -> s, with
      consecutive ids taken from the running link counter. */
  function Connect(t: Topology, pairs: seq<Span>, bw: real): (r: Topology)
    requires PairsFit(pairs, |t.nodes|)
    ensures |r.nodes| == |t.nodes|
    ensures |r.links| == |t.links| + 2 * |pairs|
  {
    if |pairs| == 0 then t
    else
      var last := |pairs| - 1;
      var t' := Connect(t, pairs[..last], bw);
      var s, d := pairs[last].src, pairs[last].dst;
      AddLink(AddLink(t', |t'.links|, s, d, bw), |t'.links| + 1, d, s, bw)
  }

  /** Connecting never renumbers or retags a node and keeps earlier links. */
  lemma {:induction false} ConnectKeeps(t: Topology, pairs: seq<Span>, bw: real)
    requires PairsFit(pairs, |t.nodes|)
    ensures var r := Connect(t, pairs, bw);
      && (forall n :: 0 <= n < |t.nodes| ==> r.nodes[n].id == t.nodes[n].id && r.nodes[n].kind == t.nodes[n].kind)
      && r.links[..|t.links|] == t.links
  {
    if |pairs| > 0 {
      var last := |pairs| - 1;
      ConnectKeeps(t, pairs[..last], bw);
      var t' := Connect(t, pairs[..last], bw);
      var r := Connect(t, pairs, bw);
      assert r.links[..|t.links|] == t'.links[..|t.links|];
      forall n | 0 <= n < |t.nodes|
        ensures r.nodes[n].id == t'.nodes[n].id && r.nodes[n].kind == t'.nodes[n].kind
      {
      }
    }
  }

  lemma PairsFitPrefix(pairs: seq<Span>, m: nat, n: nat)
    requires PairsFit(pairs, n) && m <= |pairs|
    ensures PairsFit(pairs[..m], n)
  {
    forall i | 0 <= i < m ensures pairs[..m][i] == pairs[i] { }
  }

  /** Connecting existing nodes keeps the graph well-formed. */
  lemma {:induction false} ConnectValid(t: Topology, pairs: seq<Span>, bw: real)
    requires PairsFit(pairs, |t.nodes|) && Valid(t)
    ensures Valid(Connect(t, pairs, bw))
  {
    if |pairs| > 0 {
      var last := |pairs| - 1;
      PairsFitPrefix(pairs, last, |t.nodes|);
      ConnectValid(t, pairs[..last], bw);
      var c := Connect(t, pairs[..last], bw);
      AddPairValid(c, |c.links|, |c.links| + 1, pairs[last].src, pairs[last].dst, bw);
    }
  }

  /** The last pair adds its two links after those of the earlier pairs. */
  lemma ConnectLast(t: Topology, pairs: seq<Span>, bw: real)
    requires PairsFit(pairs, |t.nodes|) && |pairs| > 0
    ensures PairsFit(pairs[..|pairs| - 1], |t.nodes|)
    ensures var last := |pairs| - 1;
      var t' := Connect(t, pairs[..last], bw);
      Connect(t, pairs, bw).links == t'.links + [Link(|t'.links|, pairs[last].src, pairs[last].dst, bw),
                                                 Link(|t'.links| + 1, pairs[last].dst, pairs[last].src, bw)]
  {
    PairsFitPrefix(pairs, |pairs| - 1, |t.nodes|);
  }

  /** Pair j becomes links 2j (forward) and 2j+1 (reverse) after the existing ones,
      each with its position as id. */
  lemma {:induction false} ConnectLinks(t: Topology, pairs: seq<Span>, bw: real)
    requires PairsFit(pairs, |t.nodes|)
    ensures var r := Connect(t, pairs, bw);
      forall j :: 0 <= j < |pairs| ==>
        && r.links[|t.links| + 2 * j] == Link(|t.links| + 2 * j, pairs[j].src, pairs[j].dst, bw)
        && r.links[|t.links| + 2 * j + 1] == Link(|t.links| + 2 * j + 1, pairs[j].dst, pairs[j].src, bw)
  {
    if |pairs| > 0 {
      var last := |pairs| - 1;
      ConnectLast(t, pairs, bw);
      ConnectLinks(t, pairs[..last], bw);
      var t' := Connect(t, pairs[..last], bw);
      var r := Connect(t, pairs, bw);
      forall j | 0 <= j < last
        ensures r.links[|t.links| + 2 * j] == Link(|t.links| + 2 * j, pairs[j].src, pairs[j].dst, bw)
        ensures r.links[|t.links| + 2 * j + 1] == Link(|t.links| + 2 * j + 1, pairs[j].dst, pairs[j].src, bw)
      {
        assert pairs[..last][j] == pairs[j];
        assert r.links[|t.links| + 2 * j] == t'.links[|t.links| + 2 * j];
        assert r.links[|t.links| + 2 * j + 1] == t'.links[|t.links| + 2 * j + 1];
      }
    }
  }

  lemma MulAddBound(p: nat, bigP: nat, t: nat, h: nat)
    requires p < bigP && t < h
    ensures p * h + t < bigP * h
  {
    assert (p + 1) * h <= bigP * h;
  }

  lemma {:induction false} MulPos(h: nat, d: nat)
    requires d >= 1
    ensures h * d >= h
  {
    if d > 1 {
      MulPos(h, d - 1);
      assert h * d == h * (d - 1) + h;
    }
  }

  lemma ModAdd(p: nat, h: nat, a: nat)
    requires a < h
    ensures (p * h + a) % h == a
  {
    var x := p * h + a;
    var q, r := x / h, x % h;
    assert x == h * q + r && 0 <= r < h;
    if q > p {
      assert h * q == h * p + h * (q - p);
      MulPos(h, q - p);
    } else if q < p {
      assert h * p == h * q + h * (p - q);
      MulPos(h, p - q);
    }
  }

  // Which layer each endpoint of a forward link lies in.
  predicate HostTor(h: nat, pods: nat, e: Span) {
    e.src < TorBase(h, pods) && TorBase(h, pods) <= e.dst < AggBase(h, pods)
  }

  predicate TorAgg(h: nat, pods: nat, e: Span) {
    TorBase(h, pods) <= e.src < AggBase(h, pods) && AggBase(h, pods) <= e.dst < CoreBase(h, pods)
  }

  /** An AGG -> CORE link, where AGG a of its pod reaches only cores c with c mod h == a. */
  predicate AggCore(h: nat, pods: nat, e: Span)
    requires h > 0
  {
    && AggBase(h, pods) <= e.src < CoreBase(h, pods)
    && CoreBase(h, pods) <= e.dst < NodeCount(h, pods)
    && (e.dst - CoreBase(h, pods)) % h == (e.src - AggBase(h, pods)) % h
  }

  lemma HostTorRowShape(h: nat, pods: nat, p: nat)
    requires p < pods
    ensures |HostTorRow(h, pods, p)| == h * h
    ensures forall e :: e in HostTorRow(h, pods, p) ==> HostTor(h, pods, e)
  {
    var cells := seq(h, (t: nat) => seq(h, (x: nat) => Span((p * h + t) * h + x, TorBase(h, pods) + p * h + t)));
    FlattenUniform(cells, h);
    forall e | e in HostTorRow(h, pods, p) ensures HostTor(h, pods, e) {
      FlattenMember(cells, e);
      var t :| 0 <= t < h && e in cells[t];
      var x :| 0 <= x < h && cells[t][x] == e;
      HostTorCell(h, pods, p, t, x);
    }
  }

  /** Host x under TOR t of pod p linked to that TOR is a HOST -> TOR link. */
  lemma HostTorCell(h: nat, pods: nat, p: nat, t: nat, x: nat)
    requires p < pods && t < h && x < h
    ensures HostTor(h, pods, Span((p * h + t) * h + x, TorBase(h, pods) + p * h + t))
  {
    MulAddBound(p, pods, t, h);
    MulAddBound(p * h + t, pods * h, x, h);
  }

  /** TOR t of pod p linked to AGG a of the same pod is a TOR -> AGG link. */
  lemma TorAggCell(h: nat, pods: nat, p: nat, t: nat, a: nat)
    requires p < pods && t < h && a < h
    ensures TorAgg(h, pods, Span(TorBase(h, pods) + p * h + t, AggBase(h, pods) + p * h + a))
  {
    MulAddBound(p, pods, t, h);
    MulAddBound(p, pods, a, h);
  }

  lemma HostTorShape(h: nat, pods: nat)
    ensures |HostTorPairs(h, pods)| == pods * h * h
    ensures forall e :: e in HostTorPairs(h, pods) ==> HostTor(h, pods, e)
  {
    var rows := seq(pods, (p: nat) => HostTorRow(h, pods, p));
    forall p | 0 <= p < pods
      ensures |rows[p]| == h * h
    {
      HostTorRowShape(h, pods, p);
    }
    FlattenUniform(rows, h * h);
    forall e | e in HostTorPairs(h, pods) ensures HostTor(h, pods, e) {
      FlattenMember(rows, e);
      var p :| 0 <= p < pods && e in rows[p];
      HostTorRowShape(h, pods, p);
    }
  }

  lemma TorAggRowShape(h: nat, pods: nat, p: nat)
    requires p < pods
    ensures |TorAggRow(h, pods, p)| == h * h
    ensures forall e :: e in TorAggRow(h, pods, p) ==> TorAgg(h, pods, e)
  {
    var cells := seq(h, (t: nat) => seq(h, (a: nat) => Span(TorBase(h, pods) + p * h + t, AggBase(h, pods) + p * h + a)));
    FlattenUniform(cells, h);
    forall e | e in TorAggRow(h, pods, p) ensures TorAgg(h, pods, e) {
      FlattenMember(cells, e);
      var t :| 0 <= t < h && e in cells[t];
      var a :| 0 <= a < h && cells[t][a] == e;
      TorAggCell(h, pods, p, t, a);
    }
  }

  lemma TorAggShape(h: nat, pods: nat)
    ensures |TorAggPairs(h, pods)| == pods * h * h
    ensures forall e :: e in TorAggPairs(h, pods) ==> TorAgg(h, pods, e)
  {
    var rows := seq(pods, (p: nat) => TorAggRow(h, pods, p));
    forall p | 0 <= p < pods
      ensures |rows[p]| == h * h
    {
      TorAggRowShape(h, pods, p);
    }
    FlattenUniform(rows, h * h);
    forall e | e in TorAggPairs(h, pods) ensures TorAgg(h, pods, e) {
      FlattenMember(rows, e);
      var p :| 0 <= p < pods && e in rows[p];
      TorAggRowShape(h, pods, p);
    }
  }

  lemma ModShift(c: nat, h: nat)
    requires h > 0
    ensures (c + h) % h == c % h
  {
    var q, r := c / h, c % h;
    assert c == q * h + r;
    ModAdd(q, h, r);
    assert c + h == (q + 1) * h + r;
    ModAdd(q + 1, h, r);
  }

  /** The core loop visits only cores congruent to its start, below the limit. */
  lemma {:induction false} CoreLoopMembers(c: nat, h: nat, limit: nat)
    requires h > 0
    ensures forall e :: e in CoreLoop(c, h, limit) ==> c <= e < limit && e % h == c % h
    decreases limit - c
  {
    if c < limit {
      CoreLoopMembers(c + h, h, limit);
      ModShift(c, h);
    }
  }

  /** Started at a + m*h with a < h, the core loop runs h - m more times. */
  lemma {:induction false} CoreLoopLength(a: nat, m: nat, h: nat)
    requires a < h && m <= h
    ensures |CoreLoop(a + m * h, h, h * h)| == h - m
    decreases h - m
  {
    if m < h {
      assert a + m * h < h * h by {
        assert (m + 1) * h <= h * h by { MulPos(h, h - m); assert h * h == (m + 1) * h + h * (h - m - 1); }
      }
      CoreLoopLength(a, m + 1, h);
      assert a + m * h + h == a + (m + 1) * h;
    } else {
      assert a + m * h >= h * h;
    }
  }

  /** AGG a of pod p linked to a core c congruent to a is an AGG -> CORE link. */
  lemma AggCoreCell(h: nat, pods: nat, p: nat, a: nat, c: nat)
    requires p < pods && a < h && c < h * h && c % h == a
    ensures AggCore(h, pods, Span(AggBase(h, pods) + p * h + a, CoreBase(h, pods) + c))
  {
    MulAddBound(p, pods, a, h);
    ModAdd(p, h, a);
  }

  lemma AggCoreRowShape(h: nat, pods: nat, p: nat, a: nat)
    requires p < pods && a < h
    ensures |AggCoreRow(h, pods, p, a)| == h
    ensures forall e :: e in AggCoreRow(h, pods, p, a) ==> AggCore(h, pods, e)
  {
    var cs := CoreLoop(a, h, h * h);
    var row := AggCoreRow(h, pods, p, a);
    CoreLoopLength(a, 0, h);
    CoreLoopMembers(a, h, h * h);
    ModAdd(0, h, a);
    forall e | e in row ensures AggCore(h, pods, e) {
      var i :| 0 <= i < |cs| && row[i] == e;
      assert cs[i] in cs;
      AggCoreCell(h, pods, p, a, cs[i]);
    }
  }

  lemma AggCorePodShape(h: nat, pods: nat, p: nat)
    requires p < pods
    ensures |AggCorePod(h, pods, p)| == h * h
    ensures forall e :: e in AggCorePod(h, pods, p) ==> h > 0 && AggCore(h, pods, e)
  {
    var cells := seq(h, (a: nat) requires a < h => AggCoreRow(h, pods, p, a));
    forall a | 0 <= a < h ensures |cells[a]| == h {
      AggCoreRowShape(h, pods, p, a);
    }
    FlattenUniform(cells, h);
    forall e | e in AggCorePod(h, pods, p) ensures h > 0 && AggCore(h, pods, e) {
      FlattenMember(cells, e);
      var a :| 0 <= a < h && e in cells[a];
      AggCoreRowShape(h, pods, p, a);
    }
  }

  lemma AggCoreShape(h: nat, pods: nat)
    ensures |AggCorePairs(h, pods)| == pods * h * h
    ensures forall e :: e in AggCorePairs(h, pods) ==> h > 0 && AggCore(h, pods, e)
  {
    var rows := seq(pods, (p: nat) => AggCorePod(h, pods, p));
    forall p | 0 <= p < pods
      ensures |rows[p]| == h * h
    {
      AggCorePodShape(h, pods, p);
    }
    FlattenUniform(rows, h * h);
    forall e | e in AggCorePairs(h, pods) ensures h > 0 && AggCore(h, pods, e) {
      FlattenMember(rows, e);
      var p :| 0 <= p < pods && e in rows[p];
      AggCorePodShape(h, pods, p);
    }
  }

  /** The layer a node position falls in. */
  function KindAt(h: nat, pods: nat, n: nat): NodeKind {
    if n < TorBase(h, pods) then Host
    else if n < AggBase(h, pods) then Tor
    else if n < CoreBase(h, pods) then Agg
    else Core
  }

  lemma NodesShape(h: nat, pods: nat)
    ensures |Nodes(h, pods)| == NodeCount(h, pods)
    ensures forall n :: 0 <= n < NodeCount(h, pods) ==> Nodes(h, pods)[n] == NewNode(n, KindAt(h, pods, n))
  {
  }

  /** Every forward pair lies within one of the three layer boundaries. */
  lemma PairsClassified(h: nat, pods: nat)
    ensures |Pairs(h, pods)| == 3 * (pods * h * h)
    ensures forall i :: 0 <= i < |Pairs(h, pods)| ==>
      HostTor(h, pods, Pairs(h, pods)[i]) || TorAgg(h, pods, Pairs(h, pods)[i])
      || (h > 0 && AggCore(h, pods, Pairs(h, pods)[i]))
    ensures PairsFit(Pairs(h, pods), NodeCount(h, pods))
  {
    var pairs := Pairs(h, pods);
    HostTorShape(h, pods);
    TorAggShape(h, pods);
    AggCoreShape(h, pods);
    forall i | 0 <= i < |pairs|
      ensures HostTor(h, pods, pairs[i]) || TorAgg(h, pods, pairs[i]) || (h > 0 && AggCore(h, pods, pairs[i]))
    {
      PairClassified(h, pods, i);
    }
  }

  /** Pair i comes from the loop whose block of the pair list holds position i. */
  lemma PairClassified(h: nat, pods: nat, i: nat)
    requires i < |Pairs(h, pods)|
    ensures HostTor(h, pods, Pairs(h, pods)[i]) || TorAgg(h, pods, Pairs(h, pods)[i])
      || (h > 0 && AggCore(h, pods, Pairs(h, pods)[i]))
  {
    var ht, ta, ac := HostTorPairs(h, pods), TorAggPairs(h, pods), AggCorePairs(h, pods);
    HostTorShape(h, pods);
    TorAggShape(h, pods);
    AggCoreShape(h, pods);
    if i < |ht| {
      assert Pairs(h, pods)[i] == ht[i] && ht[i] in ht;
    } else if i < |ht| + |ta| {
      assert Pairs(h, pods)[i] == ta[i - |ht|] && ta[i - |ht|] in ta;
    } else {
      assert Pairs(h, pods)[i] == ac[i - |ht| - |ta|] && ac[i - |ht| - |ta|] in ac;
    }
  }

  /** The three node loops followed by the three link loops. */
  function Build(k: nat, pods: nat, bw: real): Topology {
    var h := Half(k);
    PairsClassified(h, pods);
    NodesShape(h, pods);
    Connect(Topology(Nodes(h, pods), []), Pairs(h, pods), bw)
  }

  lemma BuildNodes(k: nat, pods: nat, bw: real)
    ensures var t := Build(k, pods, bw);
      && |t.nodes| == NodeCount(Half(k), pods)
      && forall n :: 0 <= n < |t.nodes| ==> t.nodes[n].id == n && t.nodes[n].kind == KindAt(Half(k), pods, n)
  {
    var h := Half(k);
    PairsClassified(h, pods);
    NodesShape(h, pods);
    ConnectKeeps(Topology(Nodes(h, pods), []), Pairs(h, pods), bw);
  }

  lemma BuildValid(k: nat, pods: nat, bw: real)
    ensures Valid(Build(k, pods, bw))
  {
    var h := Half(k);
    PairsClassified(h, pods);
    NodesShape(h, pods);
    var t0 := Topology(Nodes(h, pods), []);
    assert Valid(t0);
    ConnectValid(t0, Pairs(h, pods), bw);
  }

  lemma BuildLinks(k: nat, pods: nat, bw: real)
    ensures var t := Build(k, pods, bw);
      && |t.links| == 2 * |Pairs(Half(k), pods)|
      && forall i :: 0 <= i < |Pairs(Half(k), pods)| ==>
           t.links[2 * i] == Link(2 * i, Pairs(Half(k), pods)[i].src, Pairs(Half(k), pods)[i].dst, bw)
           && t.links[2 * i + 1] == Link(2 * i + 1, Pairs(Half(k), pods)[i].dst, Pairs(Half(k), pods)[i].src, bw)
  {
    var h := Half(k);
    PairsClassified(h, pods);
    NodesShape(h, pods);
    ConnectLinks(Topology(Nodes(h, pods), []), Pairs(h, pods), bw);
  }

  /** What the generator promises of link j. */
  lemma BuildLink(k: nat, pods: nat, bw: real, j: nat)
    requires j < |Build(k, pods, bw).links|
    ensures var t := Build(k, pods, bw);
      && t.links[j].id == j && t.links[j].bandwidth == bw
      && t.links[j].src < |t.nodes| && t.links[j].dst < |t.nodes|
      && (t.nodes[t.links[j].src].kind == Agg && t.nodes[t.links[j].dst].kind == Core ==>
            Half(k) > 0 && AggCore(Half(k), pods, Span(t.links[j].src, t.links[j].dst)))
  {
    var h := Half(k);
    var t := Build(k, pods, bw);
    var pairs := Pairs(h, pods);
    PairsClassified(h, pods);
    BuildLinks(k, pods, bw);
    BuildNodes(k, pods, bw);
    var i := j / 2;
    var e := pairs[i];
    var src, dst := t.links[j].src, t.links[j].dst;
    if j == 2 * i {
      assert t.links[2 * i] == Link(2 * i, e.src, e.dst, bw);
      assert (src, dst) == (e.src, e.dst);
    } else {
      assert j == 2 * i + 1;
      assert t.links[2 * i + 1] == Link(2 * i + 1, e.dst, e.src, bw);
      assert (src, dst) == (e.dst, e.src);
    }
    if t.nodes[src].kind == Agg && t.nodes[dst].kind == Core {
      // Only the forward link of an AGG -> CORE pair runs from AGG to CORE.
      assert KindAt(h, pods, src) == Agg && KindAt(h, pods, dst) == Core;
    }
  }

  /** The generated fat tree (any previous graph is discarded): nodes are laid
      out layer by layer and numbered by position, links come in forward/reverse
      pairs numbered by position, and AGG a of a pod reaches only cores c with
      c mod (k/2) == a. */
  function Generate(k: nat, pods: nat, bw: real): (t: Topology)
    ensures Valid(t)
    ensures |t.nodes| == NodeCount(Half(k), pods)
    ensures forall n :: 0 <= n < |t.nodes| ==> t.nodes[n].id == n && t.nodes[n].kind == KindAt(Half(k), pods, n)
    ensures |t.links| == 6 * (pods * Half(k) * Half(k))
    ensures forall j :: 0 <= j < |t.links| ==> t.links[j].id == j && t.links[j].bandwidth == bw
    ensures forall j :: 0 <= j < |t.links| / 2 ==>
              t.links[2 * j + 1].src == t.links[2 * j].dst && t.links[2 * j + 1].dst == t.links[2 * j].src
    ensures forall j :: 0 <= j < |t.links| && t.nodes[t.links[j].src].kind == Agg && t.nodes[t.links[j].dst].kind == Core ==>
              Half(k) > 0 && AggCore(Half(k), pods, Span(t.links[j].src, t.links[j].dst))
  {
    var t := Build(k, pods, bw);
    var h := Half(k);
    PairsClassified(h, pods);
    BuildNodes(k, pods, bw);
    BuildValid(k, pods, bw);
    BuildLinks(k, pods, bw);
    forall j | 0 <= j < |t.links| / 2
      ensures t.links[2 * j + 1].src == t.links[2 * j].dst && t.links[2 * j + 1].dst == t.links[2 * j].src
    {
      assert j < |Pairs(h, pods)|;
    }
    forall j | 0 <= j < |t.links|
      ensures t.links[j].id == j && t.links[j].bandwidth == bw
      ensures t.links[j].src < |t.nodes| && t.links[j].dst < |t.nodes|
      ensures t.nodes[t.links[j].src].kind == Agg && t.nodes[t.links[j].dst].kind == Core ==>
                Half(k) > 0 && AggCore(Half(k), pods, Span(t.links[j].src, t.links[j].dst))
    {
      BuildLink(k, pods, bw, j);
    }
    t
  }
}

=== FILE: flows.dfy ===
/** `Flow` of workload.h and its per-flow clock, `Flow::stableTime` and
    `Flow::progress` (workload.cpp). */
module Flows {
  import opened ExtReal

  datatype FlowState = NotStart | Run | Complete

  /** A flow between two node positions. `path` is a node sequence and
      `pathLinks` a sequence of link positions; `throughput` is written by the
      allocator and `remaining` by `Progress`. */
  datatype Flow = Flow(
    id: int, src: nat, dst: nat, dataSize: real, startTime: real,
    state: FlowState, path: seq<nat>, pathLinks: seq<nat>,
    throughput: real, remaining: real)

  /** `Flow(id, src, dst, dataSize, startTime)`: not started, no path yet.
      The C++ constructor leaves throughput and remaining size uninitialised;
      both are written before they are read, so 0 stands in for them. */
  function NewFlow(id: int, src: nat, dst: nat, dataSize: real, startTime: real): (f: Flow)
    ensures f.id == id && f.src == src && f.dst == dst && f.dataSize == dataSize && f.startTime == startTime
    ensures f.state == NotStart && f.path == [] && f.pathLinks == []
    ensures Rank(f.state) == 0 && StableTime(f, startTime) == Finite(0.0)
  {
    Flow(id, src, dst, dataSize, startTime, NotStart, [], [], 0.0, 0.0)
  }

  /** A flow may start this early before its start time (1e-5). */
  const StartSlack: real := 0.00001
  /** A running flow completes once less than this much data is left (1e-5). */
  const DoneThreshold: real := 0.00001

  /** Position in the lifecycle NotStart -> Run -> Complete. */
  function Rank(s: FlowState): nat {
    match s
    case NotStart => 0
    case Run => 1
    case Complete => 2
  }

  /** How long the current rates stay valid for this flow, seen at time `now`.
      A running flow with zero throughput divides by zero in the source, which
      yields +infinity for the positive remaining size a running flow has. */
  function StableTime(f: Flow, now: real): (r: EReal)
    ensures r.Infinity? <==> f.state == Complete || (f.state == Run && f.throughput == 0.0)
    ensures f.state == NotStart ==> r.value >= 0.0 && now + r.value >= f.startTime
    ensures f.state == NotStart ==> (r.value == 0.0 <==> now >= f.startTime)
    ensures f.state == NotStart && now < f.startTime ==> now + r.value == f.startTime
    ensures f.state == Run && f.throughput != 0.0 ==> r.value * f.throughput == f.remaining
  {
    match f.state
    case NotStart => Finite(if f.startTime - now < 0.0 then 0.0 else f.startTime - now)
    case Run => if f.throughput == 0.0 then Infinity else Finite(f.remaining / f.throughput)
    case Complete => Infinity
  }

  /** Advance one flow from `now` by `delta`. */
  function Progress(f: Flow, now: real, delta: real): (g: Flow)
    ensures Rank(g.state) == Rank(f.state) || Rank(g.state) == Rank(f.state) + 1
    ensures g.(state := f.state, remaining := f.remaining) == f
    ensures f.state != Complete && g.state == Complete ==> g.remaining == 0.0
    ensures f.state == NotStart && g.state == Run ==> g.remaining == f.dataSize
    ensures f.state == Run && g.state == Run ==> g.remaining >= DoneThreshold
    ensures f.state == NotStart ==> (g.state == Run <==> now + delta >= f.startTime - StartSlack)
    ensures f.state == Run ==> (g.state == Complete <==> f.remaining - f.throughput * delta < DoneThreshold)
    ensures f.state == Run && g.state == Run ==> g.remaining == f.remaining - f.throughput * delta
    ensures g.state == f.state && f.state != Run ==> g == f
  {
    match f.state
    case NotStart =>
      if now + delta >= f.startTime - StartSlack then f.(state := Run, remaining := f.dataSize) else f
    case Run =>
      var left := f.remaining - f.throughput * delta;
      if left < DoneThreshold then f.(state := Complete, remaining := 0.0) else f.(remaining := left)
    case Complete => f
  }

  /** Advancing a flow by exactly its own stable time moves it one stage on:
      a waiting flow starts and a running flow completes. */
  lemma ProgressByStableTime(f: Flow, now: real)
    requires StableTime(f, now).Finite?
    ensures Rank(Progress(f, now, StableTime(f, now).value).state) == Rank(f.state) + 1
  {
    if f.state == Run {
      var d := f.remaining / f.throughput;
      assert f.throughput * d == f.remaining;
    }
  }

  /** While running at a non-negative rate for a non-negative time, the flow
      either keeps a remaining size between 0 and its old one or completes
      with 0 left; from a non-negative remaining size it never grows and
      never becomes negative. */
  lemma ProgressDrains(f: Flow, now: real, delta: real)
    requires f.state == Run && f.throughput >= 0.0 && delta >= 0.0
    ensures var g := Progress(f, now, delta);
      0.0 <= g.remaining <= f.remaining || (g.state == Complete && g.remaining == 0.0)
    ensures f.remaining >= 0.0 ==> 0.0 <= Progress(f, now, delta).remaining <= f.remaining
  {
    assert f.throughput * delta >= 0.0;
  }

  /** The stable time is never negative when the rate and remaining size are not. */
  lemma StableTimeNonNegative(f: Flow, now: real)
    requires f.state == Run ==> f.throughput >= 0.0 && f.remaining >= 0.0
    ensures StableTime(f, now).Finite? ==> StableTime(f, now).value >= 0.0
  {
  }
}

=== FILE: graph.dfy ===
/** The network graph of topology.h: nodes, directed links and each node's
    outgoing adjacency. Pointers become indices: a link names its endpoints by
    their position in `nodes`, and a node lists its outgoing links by their
    position in `links`. */
module Graph {

  datatype NodeKind = Core | Agg | Tor | Host

  /** `Node`: identity, category tag and outgoing links (positions in `links`). */
  datatype Node = Node(id: int, kind: NodeKind, out: seq<nat>)

  /** `Link`: identity, directed endpoints (positions in `nodes`) and capacity.
      The allocator's per-tick scratch state lives in WaterFill, not here. */
  datatype Link = Link(id: int, src: nat, dst: nat, bandwidth: real)

  datatype Topology = Topology(nodes: seq<Node>, links: seq<Link>)

  /** The `Node(id, type)` constructor: a node starts with no outgoing links. */
  function NewNode(id: int, kind: NodeKind): (n: Node)
    ensures n.id == id && n.kind == kind && n.out == []
  {
    Node(id, kind, [])
  }

  /** Positions, in increasing order, of the links whose source is node `n`. */
  function Outgoing(links: seq<Link>, n: nat): seq<nat>
  {
    if |links| == 0 then []
    else
      var last := |links| - 1;
      Outgoing(links[..last], n) + (if links[last].src == n then [last] else [])
  }

  /** Every listed position is a link leaving n. */
  lemma {:induction false} OutgoingSound(links: seq<Link>, n: nat)
    ensures forall i :: 0 <= i < |Outgoing(links, n)| ==>
      Outgoing(links, n)[i] < |links| && links[Outgoing(links, n)[i]].src == n
  {
    if |links| > 0 {
      var last := |links| - 1;
      var p := links[..last];
      OutgoingSound(p, n);
      var q := Outgoing(p, n);
      var r := Outgoing(links, n);
      forall i | 0 <= i < |r| ensures r[i] < |links| && links[r[i]].src == n {
        if i < |q| {
          assert r[i] == q[i] && links[q[i]] == p[q[i]];
        }
      }
    }
  }

  /** Every link leaving n is listed. */
  lemma {:induction false} OutgoingComplete(links: seq<Link>, n: nat)
    ensures forall j :: 0 <= j < |links| && links[j].src == n ==> j in Outgoing(links, n)
  {
    if |links| > 0 {
      var last := |links| - 1;
      var p := links[..last];
      OutgoingComplete(p, n);
      forall j | 0 <= j < |links| && links[j].src == n ensures j in Outgoing(links, n) {
        if j < last {
          assert p[j] == links[j];
        }
      }
    }
  }

  /** The list is strictly increasing, so it has no repeats and keeps creation order. */
  lemma {:induction false} OutgoingAscending(links: seq<Link>, n: nat)
    ensures forall a, b :: 0 <= a < b < |Outgoing(links, n)| ==> Outgoing(links, n)[a] < Outgoing(links, n)[b]
  {
    if |links| > 0 {
      var last := |links| - 1;
      var p := links[..last];
      OutgoingAscending(p, n);
      OutgoingSound(p, n);
      var q := Outgoing(p, n);
      var r := Outgoing(links, n);
      forall a, b | 0 <= a < b < |r| ensures r[a] < r[b] {
        if b < |q| {
          assert r[a] == q[a] && r[b] == q[b];
        } else {
          assert r[a] == q[a] && r[b] == last;
        }
      }
    }
  }

  /** The adjacency list holds exactly the links leaving n, without repeats, in creation order. */
  lemma {:induction false} OutgoingSpec(links: seq<Link>, n: nat)
    ensures var r := Outgoing(links, n);
      && (forall i :: 0 <= i < |r| ==> r[i] < |links| && links[r[i]].src == n)
      && (forall j :: 0 <= j < |links| && links[j].src == n ==> j in r)
      && (forall a, b :: 0 <= a < b < |r| ==> r[a] < r[b])
  {
    OutgoingSound(links, n);
    OutgoingComplete(links, n);
    OutgoingAscending(links, n);
  }

  lemma OutgoingSnoc(links: seq<Link>, l: Link, n: nat)
    ensures Outgoing(links + [l], n) == Outgoing(links, n) + (if l.src == n then [|links|] else [])
  {
    assert (links + [l])[..|links|] == links;
  }

  /** Every link joins two existing nodes, and every node's adjacency list is
      exactly the links leaving it, in creation order. */
  predicate Valid(t: Topology) {
    && (forall j :: 0 <= j < |t.links| ==> t.links[j].src < |t.nodes| && t.links[j].dst < |t.nodes|)
    && (forall n {:trigger Outgoing(t.links, n)} :: 0 <= n < |t.nodes| ==> t.nodes[n].out == Outgoing(t.links, n))
  }

  /** In a well-formed graph a node's adjacency list names exactly the links leaving it. */
  lemma AdjacencySpec(t: Topology, n: nat)
    requires Valid(t) && n < |t.nodes|
    ensures forall i :: 0 <= i < |t.nodes[n].out| ==>
              t.nodes[n].out[i] < |t.links| && t.links[t.nodes[n].out[i]].src == n
    ensures forall j :: 0 <= j < |t.links| && t.links[j].src == n ==> j in t.nodes[n].out
    ensures forall a, b :: 0 <= a < b < |t.nodes[n].out| ==> t.nodes[n].out[a] < t.nodes[n].out[b]
  {
    OutgoingSpec(t.links, n);
    assert t.nodes[n].out == Outgoing(t.links, n);
  }

  predicate PositiveBandwidths(t: Topology) {
    forall j :: 0 <= j < |t.links| ==> t.links[j].bandwidth > 0.0
  }

  predicate NonNegativeBandwidths(t: Topology) {
    forall j :: 0 <= j < |t.links| ==> t.links[j].bandwidth >= 0.0
  }

  /** There is a directed link from node u to node v. */
  predicate Edge(t: Topology, u: nat, v: nat) {
    exists j :: 0 <= j < |t.links| && t.links[j].src == u && t.links[j].dst == v
  }

  /** w is a walk from u to v: consecutive nodes are joined by links. */
  ghost predicate Walk(t: Topology, w: seq<nat>, u: nat, v: nat) {
    && |w| > 0 && w[0] == u && w[|w| - 1] == v
    && forall i :: 0 <= i < |w| - 1 ==> Edge(t, w[i], w[i + 1])
  }

  /** Appends a new link to the graph's link list and its position to the
      source node's adjacency list: the one way both generators create a link. */
  function AddLink(t: Topology, id: int, src: nat, dst: nat, bw: real): (r: Topology)
    requires src < |t.nodes|
    ensures |r.nodes| == |t.nodes|
    ensures r.links == t.links + [Link(id, src, dst, bw)]
    ensures forall n :: 0 <= n < |t.nodes| && n != src ==> r.nodes[n] == t.nodes[n]
    ensures r.nodes[src] == t.nodes[src].(out := t.nodes[src].out + [|t.links|])
  {
    var owner := t.nodes[src];
    Topology(t.nodes[src := owner.(out := owner.out + [|t.links|])], t.links + [Link(id, src, dst, bw)])
  }

  /** Adding a link between existing nodes keeps the graph well-formed. */
  lemma AddLinkValid(t: Topology, id: int, src: nat, dst: nat, bw: real)
    requires Valid(t) && src < |t.nodes| && dst < |t.nodes|
    ensures Valid(AddLink(t, id, src, dst, bw))
  {
    var r := AddLink(t, id, src, dst, bw);
    forall n | 0 <= n < |t.nodes| ensures r.nodes[n].out == Outgoing(r.links, n) {
      OutgoingSnoc(t.links, Link(id, src, dst, bw), n);
    }
  }

  /** Adding a link and its reverse between existing nodes keeps the graph well-formed. */
  lemma AddPairValid(t: Topology, a: int, b: int, s: nat, d: nat, bw: real)
    requires Valid(t) && s < |t.nodes| && d < |t.nodes|
    ensures Valid(AddLink(AddLink(t, a, s, d, bw), b, d, s, bw))
  {
    AddLinkValid(t, a, s, d, bw);
    AddLinkValid(AddLink(t, a, s, d, bw), b, d, s, bw);
  }
}

=== FILE: routing.dfy ===
/** The rest of `Flow::routingECMP` (workload.cpp): enumeration of all shortest
    paths back from the destination, choice of one of them by the random index
    (a parameter here), and the mapping of the chosen node path to links. */
module Routing {
  import opened Graph
  import opened Flows
  import opened BreadthFirst

  datatype Option<T> = None | Some(value: T)

  /** Append node v to each path. */
  function Extend(paths: seq<seq<nat>>, v: nat): (r: seq<seq<nat>>)
    ensures |r| == |paths|
    ensures forall i :: 0 <= i < |r| ==> r[i] == paths[i] + [v]
  {
    seq(|paths|, (i: nat) requires i < |paths| => paths[i] + [v])
  }

  /** `buildPaths(v)`: every path src ... v obtained by following recorded
      predecessors, in the order the recursion finds them. */
  function PathsTo(src: nat, st: Search, v: nat): seq<seq<nat>>
    requires Layered(src, st) && v in st.dist
    decreases st.dist[v], 1
  {
    if v == src then [[src]]
    else PathsVia(src, st, PrevOf(st.prev, v), v)
  }

  /** The paths through each predecessor in `ps`, in order, each extended to v. */
  function PathsVia(src: nat, st: Search, ps: seq<nat>, v: nat): seq<seq<nat>>
    requires Layered(src, st) && v in st.dist
    requires forall i :: 0 <= i < |ps| ==> ps[i] in st.dist && st.dist[ps[i]] < st.dist[v]
    decreases st.dist[v], 0, |ps|
  {
    if |ps| == 0 then []
    else Extend(PathsTo(src, st, ps[0]), v) + PathsVia(src, st, ps[1..], v)
  }

  /** A path of minimal hop count by the search's distances: it starts at src,
      ends at v, every step follows a link, and its i-th node is i hops away. */
  ghost predicate LayeredWalk(t: Topology, src: nat, st: Search, p: seq<nat>, v: nat) {
    && |p| > 0 && p[0] == src && p[|p| - 1] == v
    && (forall i :: 0 <= i < |p| ==> p[i] in st.dist && st.dist[p[i]] == i)
    && (forall i :: 0 <= i < |p| - 1 ==> Edge(t, p[i], p[i + 1]))
  }

  lemma {:induction false} PathsToWalks(t: Topology, src: nat, st: Search, v: nat)
    requires Sound(t, src, st) && v in st.dist
    ensures |PathsTo(src, st, v)| > 0
    ensures forall p :: p in PathsTo(src, st, v) ==> LayeredWalk(t, src, st, p, v)
    decreases st.dist[v], 1
  {
    if v != src {
      PathsViaWalks(t, src, st, PrevOf(st.prev, v), v);
    }
  }

  lemma {:induction false} PathsViaWalks(t: Topology, src: nat, st: Search, ps: seq<nat>, v: nat)
    requires Sound(t, src, st) && v in st.dist
    requires forall i :: 0 <= i < |ps| ==> ps[i] in st.dist && st.dist[v] == st.dist[ps[i]] + 1 && Edge(t, ps[i], v)
    ensures |PathsVia(src, st, ps, v)| >= |ps|
    ensures forall p :: p in PathsVia(src, st, ps, v) ==> LayeredWalk(t, src, st, p, v)
    decreases st.dist[v], 0, |ps|
  {
    if |ps| > 0 {
      var u := ps[0];
      PathsToWalks(t, src, st, u);
      PathsViaWalks(t, src, st, ps[1..], v);
      var head := Extend(PathsTo(src, st, u), v);
      forall p | p in head ensures LayeredWalk(t, src, st, p, v) {
        var i :| 0 <= i < |head| && head[i] == p;
        var q := PathsTo(src, st, u)[i];
        assert q in PathsTo(src, st, u);
        assert p == q + [v];
      }
    }
  }

  /** `allPaths`, empty when the destination was never reached. */
  function AllPaths(t: Topology, src: nat, dst: nat): (r: seq<seq<nat>>)
    requires Valid(t) && src < |t.nodes|
    ensures var st := Bfs(t, src, dst);
      src != dst && dst in st.prev ==> |r| > 0 && forall p :: p in r ==> LayeredWalk(t, src, st, p, dst)
  {
    var st := Bfs(t, src, dst);
    BfsSound(t, src, dst);
    if dst in st.prev then
      PathsToWalks(t, src, st, dst);
      PathsTo(src, st, dst)
    else []
  }

  /** The first link of `out` that leads to v, as the `break` in the link loop picks it. */
  function FirstLinkTo(t: Topology, out: seq<nat>, v: nat): (r: Option<nat>)
    requires forall i :: 0 <= i < |out| ==> out[i] < |t.links|
    ensures r.None? <==> forall i :: 0 <= i < |out| ==> t.links[out[i]].dst != v
    ensures r.Some? ==> exists k :: 0 <= k < |out| && out[k] == r.value && t.links[out[k]].dst == v
                          && forall m :: 0 <= m < k ==> t.links[out[m]].dst != v
  {
    if |out| == 0 then None
    else if t.links[out[0]].dst == v then Some(out[0])
    else
      var r := FirstLinkTo(t, out[1..], v);
      if r.Some? then
        var k :| 0 <= k < |out[1..]| && out[1..][k] == r.value && t.links[out[1..][k]].dst == v
                  && forall m :: 0 <= m < k ==> t.links[out[1..][m]].dst != v;
        assert out[k + 1] == r.value;
        r
      else r
  }

  /** The link the `path_links` loop picks for the step u -> v. */
  function FirstLink(t: Topology, u: nat, v: nat): Option<nat>
    requires Valid(t) && u < |t.nodes|
  {
    AdjacencySpec(t, u);
    FirstLinkTo(t, t.nodes[u].out, v)
  }

  /** The `path_links` loop: one link per consecutive node pair that has one. */
  function LinksAlong(t: Topology, path: seq<nat>): seq<nat>
    requires Valid(t) && forall i :: 0 <= i < |path| ==> path[i] < |t.nodes|
  {
    if |path| < 2 then []
    else
      var first := FirstLink(t, path[0], path[1]);
      (if first.Some? then [first.value] else []) + LinksAlong(t, path[1..])
  }

  /** Link l is the lowest-numbered link from u to v. */
  ghost predicate LowestLink(t: Topology, u: nat, v: nat, l: nat) {
    && l < |t.links| && t.links[l].src == u && t.links[l].dst == v
    && forall j :: 0 <= j < l ==> !(t.links[j].src == u && t.links[j].dst == v)
  }

  /** An adjacency list of u: exactly u's links, in increasing order. */
  ghost predicate AdjacencyOf(t: Topology, u: nat, out: seq<nat>) {
    && (forall i :: 0 <= i < |out| ==> out[i] < |t.links| && t.links[out[i]].src == u)
    && (forall j :: 0 <= j < |t.links| && t.links[j].src == u ==> j in out)
    && (forall a, b :: 0 <= a < b < |out| ==> out[a] < out[b])
  }

  lemma FirstInAdjacency(t: Topology, u: nat, v: nat, out: seq<nat>)
    requires AdjacencyOf(t, u, out)
    ensures var r := FirstLinkTo(t, out, v);
      && (r.Some? <==> Edge(t, u, v))
      && (r.Some? ==> LowestLink(t, u, v, r.value))
  {
    var r := FirstLinkTo(t, out, v);
    if Edge(t, u, v) {
      var j :| 0 <= j < |t.links| && t.links[j].src == u && t.links[j].dst == v;
      assert j in out;
    }
    if r.Some? {
      var k :| 0 <= k < |out| && out[k] == r.value && t.links[out[k]].dst == v
                && forall m :: 0 <= m < k ==> t.links[out[m]].dst != v;
      forall j | 0 <= j < r.value && t.links[j].src == u ensures t.links[j].dst != v {
        assert j in out;
        var m :| 0 <= m < |out| && out[m] == j;
      }
    }
  }

  /** Because adjacency lists are in creation order, the link the loop stops at
      is the lowest-numbered link from u to v, and there is one exactly when u
      and v are joined. */
  lemma FirstLinkLowest(t: Topology, u: nat, v: nat)
    requires Valid(t) && u < |t.nodes|
    ensures var r := FirstLink(t, u, v);
      && (r.Some? <==> Edge(t, u, v))
      && (r.Some? ==> LowestLink(t, u, v, r.value))
  {
    AdjacencySpec(t, u);
    FirstInAdjacency(t, u, v, t.nodes[u].out);
  }

  /** Along a path whose every step follows a link, there is one link per step,
      and link i is the lowest-numbered link from path[i] to path[i+1]. */
  lemma {:induction false} LinksAlongSpec(t: Topology, path: seq<nat>)
    requires Valid(t) && forall i :: 0 <= i < |path| ==> path[i] < |t.nodes|
    requires forall i :: 0 <= i < |path| - 1 ==> Edge(t, path[i], path[i + 1])
    ensures var ls := LinksAlong(t, path);
      && |ls| == (if |path| == 0 then 0 else |path| - 1)
      && forall i :: 0 <= i < |ls| ==> LowestLink(t, path[i], path[i + 1], ls[i])
  {
    if |path| >= 2 {
      LinksAlongSpec(t, path[1..]);
      FirstLinkLowest(t, path[0], path[1]);
      var first := FirstLink(t, path[0], path[1]);
      var rest := LinksAlong(t, path[1..]);
      var ls := LinksAlong(t, path);
      assert ls == [first.value] + rest;
      forall i | 0 <= i < |ls| ensures LowestLink(t, path[i], path[i + 1], ls[i]) {
        if i > 0 {
          assert ls[i] == rest[i - 1];
          assert path[1..][i - 1] == path[i] && path[1..][i] == path[i + 1];
        }
      }
    }
  }

  /** The search reached the destination, so `prev[dst]` exists. */
  predicate Reached(t: Topology, src: nat, dst: nat)
    requires Valid(t) && src < |t.nodes|
  {
    dst in Bfs(t, src, dst).prev
  }

  /** `allPaths[rand() % allPaths.size()]` with the random number r. */
  function ChosenPath(t: Topology, src: nat, dst: nat, r: nat): (p: seq<nat>)
    requires Valid(t) && src < |t.nodes| && src != dst && Reached(t, src, dst)
    ensures LayeredWalk(t, src, Bfs(t, src, dst), p, dst)
    ensures forall i :: 0 <= i < |p| ==> p[i] < |t.nodes|
  {
    var paths := AllPaths(t, src, dst);
    var p := paths[r % |paths|];
    assert p in paths;
    p
  }

  /** `Flow::routingECMP` with `rand()` replaced by r. `path` is cleared first,
      but `path_links` is appended to without being cleared. */
  function RouteEcmp(t: Topology, f: Flow, r: nat): (g: Flow)
    requires Valid(t) && f.src < |t.nodes| && f.dst < |t.nodes|
    ensures g == f.(path := g.path, pathLinks := g.pathLinks)
    ensures f.src == f.dst ==> g.path == [f.src] && g.pathLinks == f.pathLinks
    ensures f.src != f.dst && !Reached(t, f.src, f.dst) ==> g.path == [] && g.pathLinks == f.pathLinks
    ensures f.src != f.dst && Reached(t, f.src, f.dst) ==>
              && LayeredWalk(t, f.src, Bfs(t, f.src, f.dst), g.path, f.dst)
              && (forall i :: 0 <= i < |g.path| ==> g.path[i] < |t.nodes|)
              && g.pathLinks == f.pathLinks + LinksAlong(t, g.path)
  {
    if f.src == f.dst then f.(path := [f.src])
    else if !Reached(t, f.src, f.dst) then f.(path := [])
    else
      var p := ChosenPath(t, f.src, f.dst, r);
      f.(path := p, pathLinks := f.pathLinks + LinksAlong(t, p))
  }

  /** A routed flow's new path runs from src to dst with one hop per BFS level,
      and it gains exactly one link per hop, each the lowest-numbered link
      joining the two nodes; the links it already had are kept in front. */
  lemma RouteEcmpLinks(t: Topology, f: Flow, r: nat)
    requires Valid(t) && f.src < |t.nodes| && f.dst < |t.nodes|
    ensures var g := RouteEcmp(t, f, r);
      && (|g.path| > 0 ==> g.path[0] == f.src && g.path[|g.path| - 1] == f.dst)
      && (|g.path| > 0 <==> f.src == f.dst || Reached(t, f.src, f.dst))
      && |g.pathLinks| == |f.pathLinks| + (if |g.path| == 0 then 0 else |g.path| - 1)
      && g.pathLinks[..|f.pathLinks|] == f.pathLinks
      && forall i :: 0 <= i < |g.path| - 1 ==> LowestLink(t, g.path[i], g.path[i + 1], g.pathLinks[|f.pathLinks| + i])
  {
    var g := RouteEcmp(t, f, r);
    if f.src != f.dst && Reached(t, f.src, f.dst) {
      LinksAlongSpec(t, g.path);
      var ls := LinksAlong(t, g.path);
      forall i | 0 <= i < |g.path| - 1
        ensures LowestLink(t, g.path[i], g.path[i + 1], g.pathLinks[|f.pathLinks| + i])
      {
        assert g.pathLinks[|f.pathLinks| + i] == ls[i];
      }
    }
  }

  /** A path of the search's layering is a walk of the graph. */
  lemma LayeredIsWalk(t: Topology, src: nat, st: Search, p: seq<nat>, v: nat)
    requires LayeredWalk(t, src, st, p, v)
    ensures Walk(t, p, src, v)
  {
  }

  /** The destination is reached exactly when some walk leads from the source to it. */
  lemma ReachedIffWalk(t: Topology, src: nat, dst: nat)
    requires Valid(t) && src < |t.nodes| && src != dst
    ensures Reached(t, src, dst) <==> exists w :: Walk(t, w, src, dst)
  {
    if Reached(t, src, dst) {
      var p := ChosenPath(t, src, dst, 0);
      LayeredIsWalk(t, src, Bfs(t, src, dst), p, dst);
    }
    if w :| Walk(t, w, src, dst) {
      BfsShortest(t, src, dst, w);
      BfsSound(t, src, dst);
    }
  }

  /** ECMP routes over a shortest path: whenever some walk joins a flow's
      distinct endpoints, the chosen path is a walk between them with no more
      nodes than that walk. */
  lemma RouteEcmpShortest(t: Topology, f: Flow, r: nat, w: seq<nat>)
    requires Valid(t) && f.src < |t.nodes| && f.dst < |t.nodes| && f.src != f.dst
    requires Walk(t, w, f.src, f.dst)
    ensures Reached(t, f.src, f.dst)
    ensures var g := RouteEcmp(t, f, r); Walk(t, g.path, f.src, f.dst) && |g.path| <= |w|
  {
    ReachedIffWalk(t, f.src, f.dst);
    BfsShortest(t, f.src, f.dst, w);
    var g := RouteEcmp(t, f, r);
    LayeredIsWalk(t, f.src, Bfs(t, f.src, f.dst), g.path, f.dst);
  }
}

=== FILE: sequtil.dfy ===
/** Small facts about sequences and index sets shared by the other modules. */
module SeqUtil {

  /** Concatenation of a sequence of sequences, in order (the shape of nested loops). */
  function Flatten<T>(ss: seq<seq<T>>): seq<T>
  {
    if |ss| == 0 then [] else ss[0] + Flatten(ss[1..])
  }

  lemma {:induction false} FlattenUniform<T>(ss: seq<seq<T>>, m: nat)
    requires forall i :: 0 <= i < |ss| ==> |ss[i]| == m
    ensures |Flatten(ss)| == |ss| * m
  {
    if |ss| > 0 {
      FlattenUniform(ss[1..], m);
      assert |ss| * m == m + (|ss| - 1) * m;
    }
  }

  lemma {:induction false} FlattenMember<T>(ss: seq<seq<T>>, x: T)
    ensures x in Flatten(ss) <==> exists i :: 0 <= i < |ss| && x in ss[i]
  {
    if |ss| > 0 {
      FlattenMember(ss[1..], x);
      if x in Flatten(ss[1..]) {
        var i :| 0 <= i < |ss[1..]| && x in ss[1..][i];
        assert x in ss[i + 1];
      }
      if exists i :: 0 <= i < |ss| && x in ss[i] {
        var i :| 0 <= i < |ss| && x in ss[i];
        if i > 0 {
          assert x in ss[1..][i - 1];
        }
      }
    }
  }

  /** The index set {0, ..., n-1}. */
  function Below(n: nat): (s: set<nat>)
    ensures forall i: nat :: i in s <==> i < n
    ensures |s| == n
  {
    if n == 0 then {} else
      var s := Below(n - 1);
      assert n - 1 !in s;
      s + {n - 1}
  }

  /** A set of indices all below n has at most n elements. */
  lemma BoundedCard(s: set<nat>, n: nat)
    requires forall i :: i in s ==> i < n
    ensures |s| <= n
  {
    assert s <= Below(n);
    SubsetCard(s, Below(n));
  }

  lemma SubsetCard<T>(a: set<T>, b: set<T>)
    requires a <= b
    ensures |a| <= |b|
  {
    assert b == a + (b - a);
  }

  /** Position of the first occurrence of x. */
  function FirstIndex<T(==)>(w: seq<T>, x: T): (i: nat)
    requires x in w
    ensures i < |w| && w[i] == x
    ensures forall k :: 0 <= k < i ==> w[k] != x
  {
    if w[0] == x then 0 else 1 + FirstIndex(w[1..], x)
  }
}

=== FILE: simulator.dfy ===
/** `Simulator::run` (simulator.cpp): starting at time 0, reallocate rates,
    jump to the earliest flow event, advance every flow to it, and stop once
    no flow has an event left. */
module Simulator {
  import opened ExtReal
  import opened Graph
  import opened Flows
  import opened WaterFill
  import opened Workload

  /** What the loop leaves behind: the flows after the last `updateState`, and
      the global time at each pass of the loop (the last one is the final time). */
  datatype Outcome = Outcome(flows: seq<Flow>, clock: seq<real>)

  /** b is a later state of the flows a: no flow moves back in its lifecycle,
      and only states, remaining sizes and throughputs differ. */
  predicate Evolves(a: seq<Flow>, b: seq<Flow>) {
    && |a| == |b|
    && forall i :: 0 <= i < |a| ==>
      && Rank(b[i].state) >= Rank(a[i].state)
      && b[i].(state := a[i].state, remaining := a[i].remaining, throughput := a[i].throughput) == a[i]
  }

  lemma EvolvesTrans(a: seq<Flow>, b: seq<Flow>, c: seq<Flow>)
    requires Evolves(a, b) && Evolves(b, c)
    ensures Evolves(a, c)
  {
    forall i | 0 <= i < |a|
      ensures c[i].(state := a[i].state, remaining := a[i].remaining, throughput := a[i].throughput) == a[i]
    {
      assert c[i].(state := b[i].state, remaining := b[i].remaining, throughput := b[i].throughput) == b[i];
    }
  }

  /** No data size is negative and no running flow has a negative remaining size. */
  predicate Sane(flows: seq<Flow>) {
    forall i :: 0 <= i < |flows| ==>
      flows[i].dataSize >= 0.0 && (flows[i].state == Run ==> flows[i].remaining >= 0.0)
  }

  /** Every flow still to finish has links. */
  predicate Linked(flows: seq<Flow>) {
    forall i :: 0 <= i < |flows| && flows[i].state != Complete ==> flows[i].pathLinks != []
  }

  /** Every flow has completed or runs at zero throughput: no flow has an event left. */
  predicate Settled(flows: seq<Flow>) {
    forall i :: 0 <= i < |flows| ==>
      flows[i].state == Complete || (flows[i].state == Run && flows[i].throughput == 0.0)
  }

  /** The times never go back. */
  predicate Ascending(c: seq<real>) {
    forall i :: 0 <= i < |c| - 1 ==> c[i] <= c[i + 1]
  }

  lemma AscendingCons(x: real, c: seq<real>)
    requires |c| > 0
    ensures x <= c[0] && Ascending(c) ==> Ascending([x] + c)
  {
    if x <= c[0] && Ascending(c) {
      forall i | 0 <= i < |c| ensures ([x] + c)[i] <= ([x] + c)[i + 1] {
        if i > 0 {
          assert ([x] + c)[i] == c[i - 1];
        }
      }
    }
  }

  /** Every flow has completed. */
  predicate AllComplete(flows: seq<Flow>) {
    forall i :: 0 <= i < |flows| ==> flows[i].state == Complete
  }

  /** Reallocating rates changes only throughputs, so it keeps the flows'
      links, pending stages, sanity and links. */
  lemma UpdateKeeps(t: Topology, flows: seq<Flow>)
    requires Routed(t, flows)
    ensures var fs := UpdateState(t, flows).flows;
      && Evolves(flows, fs) && Routed(t, fs) && Pending(fs) == Pending(flows)
      && (Sane(flows) ==> Sane(fs))
      && (Linked(flows) ==> Linked(fs))
  {
    var fs := UpdateState(t, flows).flows;
    UpdateStateFrame(t, flows);
    forall i | 0 <= i < |flows| ensures fs[i].state == flows[i].state && fs[i].pathLinks == flows[i].pathLinks {
      assert fs[i] == flows[i].(throughput := fs[i].throughput);
    }
    PendingNoRise(flows, fs);
    PendingNoRise(fs, flows);
  }

  /** Advancing flows moves them on, and keeps their links, sanity and links. */
  lemma ProgressKeeps(t: Topology, flows: seq<Flow>, now: real, delta: real)
    requires Routed(t, flows)
    ensures var next := ProgressAll(flows, now, delta);
      && Evolves(flows, next) && Routed(t, next)
      && (Sane(flows) ==> Sane(next))
      && (Linked(flows) ==> Linked(next))
  {
    var next := ProgressAll(flows, now, delta);
    forall i | 0 <= i < |flows| && next[i].state == Run && Sane(flows) ensures next[i].remaining >= 0.0 {
      assert Rank(next[i].state) == Rank(flows[i].state) || Rank(next[i].state) == Rank(flows[i].state) + 1;
    }
    forall i | 0 <= i < |flows| ensures next[i].pathLinks == flows[i].pathLinks {
    }
  }

  /** With no negative bandwidth, sane flows wait a non-negative time for their next event. */
  lemma HorizonNonNegative(t: Topology, flows: seq<Flow>, now: real)
    requires Routed(t, flows)
    ensures var fs := UpdateState(t, flows).flows;
      NonNegativeBandwidths(t) && Sane(flows) && Horizon(fs, now, |fs|).Finite? ==> Horizon(fs, now, |fs|).value >= 0.0
  {
    var fs := UpdateState(t, flows).flows;
    var h := Horizon(fs, now, |fs|);
    if NonNegativeBandwidths(t) && Sane(flows) && h.Finite? {
      UpdateKeeps(t, flows);
      UpdateStateFrame(t, flows);
      UpdateStateFeasible(t, flows);
      var j :| 0 <= j < |fs| && StableTime(fs[j], now) == h;
      StableTimeNonNegative(fs[j], now);
    }
  }

  /** One pass of the loop never lets a running flow's remaining size grow:
      with no negative bandwidth and sane flows, a flow that runs before and
      after the pass has no more left afterwards. */
  lemma StepDrains(t: Topology, flows: seq<Flow>, now: real)
    requires Routed(t, flows) && NonNegativeBandwidths(t) && Sane(flows)
    ensures var fs := UpdateState(t, flows).flows;
      var h := Horizon(fs, now, |fs|);
      h.Finite? ==>
        var next := ProgressAll(fs, now, h.value);
        forall i :: 0 <= i < |flows| && flows[i].state == Run && next[i].state == Run ==>
          0.0 <= next[i].remaining <= flows[i].remaining
  {
    var fs := UpdateState(t, flows).flows;
    var h := Horizon(fs, now, |fs|);
    if h.Finite? {
      HorizonNonNegative(t, flows, now);
      UpdateStateFrame(t, flows);
      UpdateStateFeasible(t, flows);
      var next := ProgressAll(fs, now, h.value);
      forall i | 0 <= i < |flows| && flows[i].state == Run && next[i].state == Run
        ensures 0.0 <= next[i].remaining <= flows[i].remaining
      {
        assert fs[i] == flows[i].(throughput := fs[i].throughput);
        ProgressDrains(fs[i], now, h.value);
      }
    }
  }

  /** With positive bandwidths and a link for every unfinished flow, the
      flows after reallocation are settled only once all have completed. */
  lemma SettledComplete(t: Topology, flows: seq<Flow>)
    requires Routed(t, flows)
    ensures var fs := UpdateState(t, flows).flows;
      PositiveBandwidths(t) && Linked(flows) && Settled(fs) ==> AllComplete(fs)
  {
    var fs := UpdateState(t, flows).flows;
    if PositiveBandwidths(t) && Linked(flows) && Settled(fs) {
      UpdateStateFrame(t, flows);
      UpdateStatePositive(t, flows);
      forall i | 0 <= i < |fs| ensures fs[i].state == Complete {
        assert fs[i] == flows[i].(throughput := fs[i].throughput);
      }
    }
  }

  /** What one pass of the loop hands on to the rest of the run: after the
      last pass every flow is settled, and otherwise the advanced flows are
      routed, have moved on, have fewer pending stages, and keep their sanity
      (over a non-negative wait) and their links. */
  lemma PassKeeps(t: Topology, flows: seq<Flow>, now: real)
    requires Routed(t, flows)
    ensures var fs := UpdateState(t, flows).flows;
      var h := Horizon(fs, now, |fs|);
      && Evolves(flows, fs)
      && (h.Infinity? ==> Settled(fs) && (PositiveBandwidths(t) && Linked(flows) ==> AllComplete(fs)))
      && (h.Finite? ==>
            var next := ProgressAll(fs, now, h.value);
            && Routed(t, next) && Evolves(flows, next) && Pending(next) < Pending(flows)
            && (NonNegativeBandwidths(t) && Sane(flows) ==> h.value >= 0.0 && Sane(next))
            && (Linked(flows) ==> Linked(next)))
  {
    var fs := UpdateState(t, flows).flows;
    UpdateKeeps(t, flows);
    HorizonNonNegative(t, flows, now);
    var h := Horizon(fs, now, |fs|);
    if h.Infinity? {
      SettledComplete(t, flows);
    } else {
      HorizonAdvances(fs, now);
      ProgressKeeps(t, fs, now, h.value);
      EvolvesTrans(flows, fs, ProgressAll(fs, now, h.value));
    }
  }

  /** The loop from global time `now`. It ends after at most one pass per
      pending lifecycle stage plus the final one, with every flow settled,
      having only moved flows on. With no negative bandwidth and sane flows
      the global time never goes back, and with positive bandwidths and a
      link for every unfinished flow every flow completes. */
  function RunFrom(t: Topology, flows: seq<Flow>, now: real): (o: Outcome)
    requires Routed(t, flows)
    ensures 1 <= |o.clock| <= Pending(flows) + 1 && o.clock[0] == now
    ensures Evolves(flows, o.flows) && Settled(o.flows)
    ensures NonNegativeBandwidths(t) && Sane(flows) ==> Ascending(o.clock)
    ensures PositiveBandwidths(t) && Linked(flows) ==> AllComplete(o.flows)
    decreases Pending(flows)
  {
    PassKeeps(t, flows, now);
    var fs := UpdateState(t, flows).flows;
    var h := Horizon(fs, now, |fs|);
    if h.Infinity? then
      Outcome(fs, [now])
    else
      var next := ProgressAll(fs, now, h.value);
      var o := RunFrom(t, next, now + h.value);
      EvolvesTrans(flows, next, o.flows);
      AscendingCons(now, o.clock);
      Outcome(o.flows, [now] + o.clock)
  }

  /** `Simulator::run`: the loop from global time 0. */
  function Simulate(t: Topology, flows: seq<Flow>): (o: Outcome)
    requires Routed(t, flows)
    ensures |o.flows| == |flows| && |o.clock| >= 1 && o.clock[0] == 0.0
  {
    RunFrom(t, flows, 0.0)
  }

  /** The loop runs at most 2n + 1 times for n flows. */
  lemma RunSteps(t: Topology, flows: seq<Flow>)
    requires Routed(t, flows)
    ensures |Simulate(t, flows).clock| <= 2 * |flows| + 1
  {
    PendingAtMost(flows);
  }
}

=== FILE: workload.dfy ===
/** `Workload` of workload.cpp: the flow list, routing every flow, the
    earliest event over all flows (`Workload::stableTime`), advancing every
    flow (`Workload::progress`) and the `generateSimpleFlows` fixture. The
    allocator `Workload::updateState` is in WaterFill. */
module Workload {
  import opened ExtReal
  import opened Graph
  import opened Flows
  import opened Routing
  import opened WaterFill

  /** Every flow's endpoints are nodes of the topology. */
  predicate Endpoints(t: Topology, flows: seq<Flow>) {
    forall i :: 0 <= i < |flows| ==> flows[i].src < |t.nodes| && flows[i].dst < |t.nodes|
  }

  /** `Workload::routing`: `routingECMP` on every flow in order; `rs[i]` is the
      random number flow i draws. */
  function RouteAll(t: Topology, flows: seq<Flow>, rs: seq<nat>): (r: seq<Flow>)
    requires Valid(t) && Endpoints(t, flows) && |rs| == |flows|
    ensures |r| == |flows|
    ensures forall i :: 0 <= i < |flows| ==> r[i] == RouteEcmp(t, flows[i], rs[i])
  {
    seq(|flows|, i requires 0 <= i < |flows| => RouteEcmp(t, flows[i], rs[i]))
  }

  /** Routing keeps every flow's identity, endpoints, size, start and state,
      gives each flow a path from its source to its destination whenever one
      exists, and leaves every flow's links inside the topology. */
  lemma RouteAllRouted(t: Topology, flows: seq<Flow>, rs: seq<nat>)
    requires Valid(t) && Endpoints(t, flows) && |rs| == |flows| && Routed(t, flows)
    ensures var r := RouteAll(t, flows, rs);
      && Routed(t, r) && Endpoints(t, r)
      && (forall i :: 0 <= i < |flows| ==> r[i] == flows[i].(path := r[i].path, pathLinks := r[i].pathLinks))
      && (forall i :: 0 <= i < |flows| ==>
            (|r[i].path| > 0 <==> flows[i].src == flows[i].dst || exists w :: Walk(t, w, flows[i].src, flows[i].dst)))
  {
    var r := RouteAll(t, flows, rs);
    forall i, k | 0 <= i < |r| && 0 <= k < |r[i].pathLinks| ensures r[i].pathLinks[k] < |t.links| {
      RouteEcmpLinks(t, flows[i], rs[i]);
      if k < |flows[i].pathLinks| {
        assert r[i].pathLinks[k] == r[i].pathLinks[..|flows[i].pathLinks|][k];
      } else {
        var h := k - |flows[i].pathLinks|;
        assert LowestLink(t, r[i].path[h], r[i].path[h + 1], r[i].pathLinks[|flows[i].pathLinks| + h]);
      }
    }
    forall i | 0 <= i < |flows|
      ensures |r[i].path| > 0 <==> flows[i].src == flows[i].dst || exists w :: Walk(t, w, flows[i].src, flows[i].dst)
    {
      RouteEcmpLinks(t, flows[i], rs[i]);
      if flows[i].src != flows[i].dst {
        ReachedIffWalk(t, flows[i].src, flows[i].dst);
      } else {
        assert Walk(t, [flows[i].src], flows[i].src, flows[i].dst);
      }
    }
  }

  /** `Workload::stableTime` over the first n flows: the earliest time, from
      `now`, at which some flow changes state; the first flow attaining it wins. */
  function Horizon(flows: seq<Flow>, now: real, n: nat): (h: EReal)
    requires n <= |flows|
    ensures h.Infinity? <==> forall i :: 0 <= i < n ==> StableTime(flows[i], now).Infinity?
    ensures h.Finite? ==> exists i :: 0 <= i < n && StableTime(flows[i], now) == h
    ensures forall i :: 0 <= i < n ==> AtMost(h, StableTime(flows[i], now))
  {
    if n == 0 then Infinity
    else MinOf(Horizon(flows, now, n - 1), StableTime(flows[n - 1], now))
  }

  /** `Workload::progress`: every flow advances from `now` by `delta`. */
  function ProgressAll(flows: seq<Flow>, now: real, delta: real): (r: seq<Flow>)
    ensures |r| == |flows|
    ensures forall i :: 0 <= i < |flows| ==> r[i] == Progress(flows[i], now, delta)
  {
    seq(|flows|, i requires 0 <= i < |flows| => Progress(flows[i], now, delta))
  }

  /** How many lifecycle stages the flows still have to pass through. */
  function Pending(flows: seq<Flow>): nat {
    if |flows| == 0 then 0 else Pending(flows[..|flows| - 1]) + (2 - Rank(flows[|flows| - 1].state))
  }

  lemma {:induction false} PendingAtMost(flows: seq<Flow>)
    ensures Pending(flows) <= 2 * |flows|
  {
    if |flows| > 0 {
      PendingAtMost(flows[..|flows| - 1]);
    }
  }

  /** If no flow moves back and flow j moves on, fewer stages are pending. */
  lemma {:induction false} PendingDrops(a: seq<Flow>, b: seq<Flow>, j: nat)
    requires |a| == |b| && j < |a| && Rank(b[j].state) > Rank(a[j].state)
    requires forall i :: 0 <= i < |a| ==> Rank(b[i].state) >= Rank(a[i].state)
    ensures Pending(b) < Pending(a)
  {
    var n := |a| - 1;
    if j < n {
      PendingDrops(a[..n], b[..n], j);
    } else {
      PendingNoRise(a[..n], b[..n]);
    }
  }

  lemma {:induction false} PendingNoRise(a: seq<Flow>, b: seq<Flow>)
    requires |a| == |b|
    requires forall i :: 0 <= i < |a| ==> Rank(b[i].state) >= Rank(a[i].state)
    ensures Pending(b) <= Pending(a)
  {
    if |a| > 0 {
      PendingNoRise(a[..|a| - 1], b[..|b| - 1]);
    }
  }

  /** Advancing all flows by the horizon moves at least the flow attaining it
      one stage on, and moves no flow back: the event loop makes progress. */
  lemma HorizonAdvances(flows: seq<Flow>, now: real)
    requires Horizon(flows, now, |flows|).Finite?
    ensures Pending(ProgressAll(flows, now, Horizon(flows, now, |flows|).value)) < Pending(flows)
  {
    var h := Horizon(flows, now, |flows|);
    var next := ProgressAll(flows, now, h.value);
    var j :| 0 <= j < |flows| && StableTime(flows[j], now) == h;
    ProgressByStableTime(flows[j], now);
    PendingDrops(flows, next, j);
  }

  /** `generateSimpleFlows`: a flow of 100 from node 0 to node 1 starting at
      time 0, and a flow of 30 from the last node to node 1 starting at 0.5. */
  function SimpleFlows(t: Topology): (fs: seq<Flow>)
    requires |t.nodes| >= 2
    ensures |fs| == 2 && Endpoints(t, fs) && Routed(t, fs)
    ensures forall i :: 0 <= i < 2 ==> fs[i].id == i && fs[i].state == NotStart && fs[i].pathLinks == []
    ensures fs[0].src == 0 && fs[0].dst == 1 && fs[0].dataSize == 100.0 && fs[0].startTime == 0.0
    ensures fs[1].src == |t.nodes| - 1 && fs[1].dst == 1 && fs[1].dataSize == 30.0 && fs[1].startTime == 0.5
  {
    [NewFlow(0, 0, 1, 100.0, 0.0), NewFlow(1, |t.nodes| - 1, 1, 30.0, 0.5)]
  }
}
